=== FILE: README.md ===
# JANA tools parsers in Dafny

A model of the file readers of the JANA tools package. JANA2006 writes plain
text files that describe a diffraction experiment. The package reads three
kinds of them into nested dictionaries and then sorts the reflections for
composite crystals:

- a pattern file (`.m90`) holds header label/value pairs and the angle,
  intensity and error columns (`get_pattern_data`);
- a reflection list (`.prf`) holds one row per reflection with its h, k, l,
  m indices (`prf_file_parser`). Rows with m = 0 go to the `main` bucket and
  all other rows to the `satellite` bucket;
- a structure file (`.m50`) is read as a state machine keyed on the last
  label seen (`m50_file_parser`). It yields the cell, esd cell, dimensions,
  modulation vectors, W matrix, space group, centering, lattice vectors and
  symmetry operators;
- `categorize_composite_hklm` copies every reflection into each of the
  primary, secondary, common and satellite collections whose condition it
  meets.

All of them depend on two small helpers:

- `_clean_line` cuts a line into tokens;
- `_is_string` classifies a token as an integer, a float or a label, trying
  the integer conversion first.

## Layout

| file | module | what it holds |
|---|---|---|
| values.dfy | `Values` | `Option`, Python values, the uninterpreted numeric routines (`Numerics`), insertion-ordered dictionaries keyed by a counter |
| pytext.dfy | `PyText` | Python's `str.split(' ')`, `str.split()`, `strip`, ASCII `lower`, base-10 `int()` and `f'{n}'` |
| tokens.dfy | `Tokens` | `_clean_line` and `_is_string` |
| pattern.dfy | `Pattern` | the pattern-file reader |
| reflections.dfy | `Reflections` | the reflection-list reader |
| structure.dfy | `Structure` | the structure-file reader |
| composite.dfy | `Composite` | the composite classifier |

Each parser is a fold over the lines of one file. The lines are given as a
`seq<string>`. Each fold is paired with a reference description:

- the pattern reader's header is compared with a pairwise reading of the
  tokens;
- the reflection buckets are compared with the rows of the file filtered by
  m;
- the W matrix, lattice vectors and symmetry operators are compared with the
  lines that produce them;
- the composite collections are compared with what each family is meant to
  hold.

Python raises on some inputs: an `int()` or `float()` that fails on a
reflection row, a structure line with too few tokens, an empty structure
line, and a reflection list read with the data type `npd`. The docstring
offers `npd`, but neither branch handles it. Without a `num_cols` override,
the column count is unbound and any non-empty file raises
(jana_tools.py:163-169). With an override, a row read in modulated mode
leaves the angle unbound (jana_tools.py:215-232). The model reads rows for
`xrd` and `tof` only.

The model states these as preconditions (`PrfAccepts`, `RowOk`,
`M50Accepts`, `LineOk`, `LabelOk`). Every input the code handles without
raising is in the domain.

### Behaviour worth knowing (the model follows the code)

- **Header pairs stay on one line.** `last_entry` is reset at the start of
  every line (jana_tools.py:108). A label that ends a line keeps the value
  None and does not take the first token of the next line.
- **A header value can also be an intensity.** A header line such as
  `lambda 1.540593` puts a number at position 1. The code adds that number
  to `yobs` as well as to the header (`Pattern.HeaderValueAlsoIntensity`).
  So `yobs` and `tth` need not have equal lengths.
- **Tokens are split on spaces only.** `_clean_line` splits on single spaces
  (jana_tools.py:653), not on all whitespace. A tab stays inside a token.
- **The X-ray d-spacing uses the full angle.** It is computed as
  λ / (2 sin(π/180 · tth)) (jana_tools.py:220), not from half of it.
- **Errors are not silent.** A malformed reflection row or structure line
  raises in the code. The model excludes such files by precondition instead
  of skipping the line.
- **The composite hover lists are always empty.** `_get_composite_hovertemplates`
  iterates the items of each collection dictionary (`peaks`, `tth`, `q`,
  `d`, `s`), not its peaks. Every `reflection['hklm']` lookup raises and the
  bare `except` swallows it. The composite collections therefore carry no
  descriptive labels.

## Model

| member | source | states |
|---|---|---|
| Values.Put | src/jana_tools/main/jana_tools.py:239-252 | dictionary assignment `d[k] = v`: a new key is appended at the end; an existing key keeps its position (its first entry) and takes the value v, and every other entry and the key set stay as they were |
| Values.PutNextKey | src/jana_tools/main/jana_tools.py:239-260 | storing under the running peak counter of a dictionary keyed 0..n-1 appends a fresh entry and keeps the keys 0..n |
| PyText.JoinOfSplit | src/jana_tools/main/jana_tools.py:653 | joining the pieces of `line.split(' ')` with the separator gives back the line |
| PyText.SplitOfJoin | src/jana_tools/main/jana_tools.py:653 | splitting a join of separator-free pieces gives back exactly the pieces, empty ones included |
| PyText.WordsOfJoin | src/jana_tools/main/jana_tools.py:330 | words separated by single spaces are what `split()` returns |
| PyText.IntParseOfText | src/jana_tools/main/jana_tools.py:209-213 | `int()` of the decimal text `f'{i}'` of any integer is that integer (on Python 3.11 and later: any integer below the digit limit, see Left out) |
| PyText.IntRejectsSeparator | src/jana_tools/main/jana_tools.py:669-673 | `int()` skips a narrower whitespace set than `str.split()`: "\x1c7" is not an integer |
| Tokens.CleanLine | src/jana_tools/main/jana_tools.py:653-656 | no token is blank, and no token contains a newline or a space |
| Tokens.CleanLineKeepsOrder | src/jana_tools/main/jana_tools.py:653-656 | the tokens are the newline-stripped pieces of `split(' ')` at strictly increasing positions, and a piece is kept exactly when it is not blank |
| Tokens.CleanLineOfRender | src/jana_tools/main/jana_tools.py:653-656 | tokens written one space apart on a newline-terminated line are read back unchanged |
| Tokens.Classify | src/jana_tools/main/jana_tools.py:667-686 | the label flag is set exactly for strings that neither `int()` nor `float()` accepts, and a label comes back unchanged; a string `int()` accepts gives (False, that integer), one only `float()` accepts gives (False, that float); a non-string is returned as (False, value) |
| Tokens.IntegerBeforeFloat | src/jana_tools/main/jana_tools.py:669-673 | a token `int()` accepts is that integer even if `float()` accepts it too |
| Tokens.ClassifyIntText | src/jana_tools/main/jana_tools.py:669-671 | the text of any integer classifies back as that integer, never as a float or a label |
| Tokens.ClassifyFortyTwo | src/jana_tools/main/jana_tools.py:669-671 | the token "42" is the integer 42 |
| Tokens.SeparatorTokenIsLabel | src/jana_tools/main/jana_tools.py:667-683 | the token "\x1c7", which `_clean_line` keeps because it splits on spaces only, is a label when `float()` rejects it too |
| Tokens.ClassifyFourPointTwo | src/jana_tools/main/jana_tools.py:676-678 | the token "4.2" is not an integer and is whatever `float()` makes of it |
| Pattern.StepColumns | src/jana_tools/main/jana_tools.py:119-133 | a numeric token at position 0, 1 or 2 is appended to the angle, intensity or error list; q only ever follows an angle |
| Pattern.StepHeader | src/jana_tools/main/jana_tools.py:112-118 | at an even position with nothing pending, a label opens its key with None; at an odd position, a pending label takes the token's value |
| Pattern.WalkColumnsFrom | src/jana_tools/main/jana_tools.py:119-133 | from position 1 on, the angle and q lists are untouched and the intensity and error tokens ahead are recorded |
| Pattern.WalkHeaderIsPairwise | src/jana_tools/main/jana_tools.py:110-118 | the header the token walk builds equals the pairwise reading, where each even-position label takes the next token or None |
| Pattern.PairHeaderOther | src/jana_tools/main/jana_tools.py:112-118 | a key that no even-position label names keeps its earlier state |
| Pattern.PairHeaderLast | src/jana_tools/main/jana_tools.py:112-118 | the last even-position occurrence of a label decides its value: the next token, or None when the label ends the line |
| Pattern.LineTokensNonEmpty | src/jana_tools/main/jana_tools.py:107-112 | every cleaned token has a character, so a pending label is always truthy |
| Pattern.LineEffect | src/jana_tools/main/jana_tools.py:106-133 | one line appends its numeric tokens 0, 1, 2 to the angle, intensity and error lists. It appends q only next to an angle, and only when `lambda` is already in the header and the conversion succeeds. Its header is read pairwise |
| Pattern.PatternLineEffect | src/jana_tools/main/jana_tools.py:106-133 | the same, for a raw line of the file |
| Pattern.HeaderPairOnLine | src/jana_tools/main/jana_tools.py:108-118 | an even-position label not repeated later on its line maps to the next token of the same line, or to None when it ends the line |
| Pattern.HeaderUntouched | src/jana_tools/main/jana_tools.py:112-118 | a line leaves a header key alone unless one of its even-position labels names it |
| Pattern.HeaderValueAlsoIntensity | src/jana_tools/main/jana_tools.py:112-131 | a numeric value right after a label at position 0 becomes both the label's header value and an intensity |
| Pattern.QForFloats | src/jana_tools/main/jana_tools.py:123-126 | with a float `lambda` in the header, a float angle gets the same q as `convert_to_q` gives the reflection lists |
| Pattern.QNeverOutgrowsAngles | src/jana_tools/main/jana_tools.py:120-128 | over a whole file there are never more q values than angles |
| Pattern.ColumnsOfFile | src/jana_tools/main/jana_tools.py:106-133 | the angle, intensity and error lists of a file are exactly the numeric tokens at positions 0, 1 and 2 of its lines, in file order |
| Reflections.NumColsIgnoresCase | src/jana_tools/main/jana_tools.py:163-167 | data types that agree after lower-casing give the same column count |
| Reflections.NumColsDefaults | src/jana_tools/main/jana_tools.py:163-169 | without an int override: 17 columns for xrd, 13 for tof, and the count is bound exactly for these two |
| Reflections.NumColsOverride | src/jana_tools/main/jana_tools.py:168-169 | an int `num_cols` keyword argument wins whatever the data type |
| Reflections.NumColsUpperCase | src/jana_tools/main/jana_tools.py:163-165 | "XRD" selects 17 columns |
| Reflections.RowOf | src/jana_tools/main/jana_tools.py:208-232 | h, k, l, m are `int()` of columns 0-3. X-ray rows take F², FWHM and the angle from columns 8, 9, 10 and derive d. Time-of-flight rows take the flight time, F² and d from columns 6, 9, 10, have no FWHM and derive the angle. q comes from the angle, s from d, and the hklm text from the indices |
| Reflections.XrdFsqAndFwhmSeparate | src/jana_tools/main/jana_tools.py:216-217 | in X-ray rows F² and the FWHM come from different columns (8 and 9): when those columns read differently, the stored values differ |
| Reflections.IntTextWord | src/jana_tools/main/jana_tools.py:213 | the text of an index is non-empty and free of whitespace |
| Reflections.HklmRoundTrip | src/jana_tools/main/jana_tools.py:209-213 | the `hklm` text splits back into exactly the four indices |
| Reflections.OfFamily | src/jana_tools/main/jana_tools.py:238-291 | a bucket's reference list only holds rows of the file whose m puts them in that bucket |
| Reflections.BucketAdd | src/jana_tools/main/jana_tools.py:238-263 | adding a reflection to a bucket that holds a list of rows gives a bucket that holds that list plus the reflection: next key, parallel lists extended |
| Reflections.LineBuckets | src/jana_tools/main/jana_tools.py:204-291 | after one line each bucket still holds exactly the rows of its family read so far |
| Reflections.FoldBuckets | src/jana_tools/main/jana_tools.py:202-291 | after the whole file each bucket holds the file's rows of its family, in file order, keyed 0..n-1, with the angle, q, hover and flight-time lists in step |
| Reflections.FoldSnoc | src/jana_tools/main/jana_tools.py:202-206 | reading one more line is one more step of the fold, and adds that line's row if it has one |
| Reflections.GateSkipsLine | src/jana_tools/main/jana_tools.py:206 | a line whose token count is not `num_cols` changes neither bucket |
| Reflections.LineRoute | src/jana_tools/main/jana_tools.py:238-291 | a row with m = 0 becomes the next main peak under the main counter, any other row the next satellite peak; the other bucket is untouched |
| Reflections.RoutedByM | src/jana_tools/main/jana_tools.py:238-291 | the same, for a row read after the lines of a file |
| Reflections.UnmodulatedHasNoRows | src/jana_tools/main/jana_tools.py:208-298 | with `modulated=False` no line yields a reflection |
| Reflections.UnmodulatedHasNoPeaks | src/jana_tools/main/jana_tools.py:300-316 | with `modulated=False` the main peaks are empty and the satellite bucket has no peaks and no arrays |
| Reflections.ParsePrf | src/jana_tools/main/jana_tools.py:163-316 | main and satellite peaks are the file's rows with m = 0 and m != 0, keyed 0..n-1. Main arrays are always stored, satellite arrays exactly in modulated mode, and flight times exactly for tof data. Array lengths equal the peak counts |
| Structure.M50Line | src/jana_tools/main/jana_tools.py:330-397 | one line keeps the invariant that, while the last label is `wmatrix`, the dictionary holds a matrix under that key |
| Structure.ParseM50 | src/jana_tools/main/jana_tools.py:324-399 | the invariant holds after every accepted file |
| Structure.M50Snoc | src/jana_tools/main/jana_tools.py:329-331 | reading one more line is one more step of the state machine |
| Structure.AcceptsPrefix | src/jana_tools/main/jana_tools.py:329-331 | every prefix of a file read without raising is also read without raising |
| Structure.PreviousOnlyOnLabels | src/jana_tools/main/jana_tools.py:331-333 | `previous_label` becomes the first token exactly on lines whose first token is not a number |
| Structure.WmatrixResets | src/jana_tools/main/jana_tools.py:358-359 | a `wmatrix` line starts an empty matrix whatever was there before |
| Structure.NumericLineExtendsMatrix | src/jana_tools/main/jana_tools.py:394-397 | a numeric line after `wmatrix` appends its tokens as one row of floats; no other key changes |
| Structure.NumericLineElsewhereInert | src/jana_tools/main/jana_tools.py:394-397 | a numeric line after any other label, or before any label, changes nothing |
| Structure.UnknownLabelIgnored | src/jana_tools/main/jana_tools.py:332-393 | a label the parser does not know only becomes `previous_label` |
| Structure.LineFrame | src/jana_tools/main/jana_tools.py:332-397 | a line leaves every key outside its write set as it was |
| Structure.NdimSecondPair | src/jana_tools/main/jana_tools.py:345-351 | `ndim` records the dimension, and also the key named by the third token exactly when the line has four tokens; nothing else changes |
| Structure.SpaceGroupPartial | src/jana_tools/main/jana_tools.py:362-368 | an `spgroup` line stores the space group under `spgroup`: the symbol always, then the number and `num` only as far as the integer conversions succeed; no other key changes |
| Structure.ModulationVector | src/jana_tools/main/jana_tools.py:354-355 | a `qi` or `qr` line stores the three floats after its label, in order, under that label; no other key changes |
| Structure.LatticeCentering | src/jana_tools/main/jana_tools.py:371-372 | a `lattice` line stores its second token under `lattice_centering`; no other key changes |
| Structure.ParamMapLookup | src/jana_tools/main/jana_tools.py:341-342 | assigning distinct names one after another gives exactly those keys, each with its own value |
| Structure.CellParameters | src/jana_tools/main/jana_tools.py:335-343 | a `cell` line stores exactly a, b, c, al, be, ga, read from tokens 1 to 6 |
| Structure.EsdCellParameters | src/jana_tools/main/jana_tools.py:335-343 | an `esdcell` line stores exactly esd_a, esd_b, esd_c, esd_al, esd_be, esd_ga, read from tokens 1 to 6 |
| Structure.MatrixRow | src/jana_tools/main/jana_tools.py:394-397 | a numeric line after the W-matrix label or its rows adds one row to the parsed matrix |
| Structure.MatrixBlock | src/jana_tools/main/jana_tools.py:394-397 | a block of numeric lines read while the last label is `wmatrix` extends the matrix by exactly their rows, in order |
| Structure.MatrixOfBlock | src/jana_tools/main/jana_tools.py:358-397 | after a `wmatrix` line and its numeric block, the matrix is that block row for row, whatever the file held before |
| Structure.SymmetryLine | src/jana_tools/main/jana_tools.py:385-393 | a `symmetry` line appends the tokens after its label, creating the list if needed; a four-token `ndim` line naming `symmetry` stores a count there; other lines leave the key alone |
| Structure.SymmetryInFileOrder | src/jana_tools/main/jana_tools.py:385-393 | the symmetry operators of a file are the tokens after the label of its `symmetry` lines, in file order; the key exists exactly when there is one |
| Structure.LattvecLine | src/jana_tools/main/jana_tools.py:375-383 | a `lattvec` line appends the floats after its label, creating the list if needed; a four-token `ndim` line naming `lattvec` stores a count there; other lines leave the key alone |
| Structure.AcceptedLattvecFloats | src/jana_tools/main/jana_tools.py:379-381 | in a file read without raising, every `lattvec` line holds floats after its label |
| Structure.LatticeVectorsInFileOrder | src/jana_tools/main/jana_tools.py:375-383 | the lattice vectors of a file are the floats after the label of its `lattvec` lines, in file order; the key exists exactly when there is one |
| Composite.FlagsMeaning | src/jana_tools/main/jana_tools.py:444-475 | each flag holds exactly when intended. Primary: m = 0. Secondary: the index the axis selects is 0. Common: both. Satellite: m != 0 and the selected index exists and is not 0 |
| Composite.MembersElements | src/jana_tools/main/jana_tools.py:431-475 | a reflection is among a family's members exactly when it was visited and belongs to the family |
| Composite.AppendHolds | src/jana_tools/main/jana_tools.py:478-511 | appending a reflection to a collection extends its peaks under the next key and its tth, q, d, s lists in step |
| Composite.VisitHolds | src/jana_tools/main/jana_tools.py:444-511 | one visited reflection is appended to exactly the collections whose family it belongs to |
| Composite.VisitAllHolds | src/jana_tools/main/jana_tools.py:431-514 | each collection holds exactly the visited reflections of its family, in visiting order, keyed 0..n-1, with the parallel lists in step |
| Composite.CategorizeHolds | src/jana_tools/main/jana_tools.py:431-514 | the same for a dataset, with the main peaks visited before the satellite peaks |
| Composite.InCollection | src/jana_tools/main/jana_tools.py:431-514 | a reflection is in a collection exactly when it was visited and belongs to that collection's family |
| Composite.CommonIsIntersection | src/jana_tools/main/jana_tools.py:446-464 | common holds exactly the reflections that are both primary and secondary |
| Composite.SatellitesDisjoint | src/jana_tools/main/jana_tools.py:455-475 | no satellite is also primary or secondary |
| Composite.Coverage | src/jana_tools/main/jana_tools.py:411-475 | for the axes a, b and c every visited reflection is primary, secondary or satellite |
| Composite.NoMembersOffAxis | src/jana_tools/main/jana_tools.py:411-418 | for any other axis string only the primary family has members |
| Composite.OnlyPrimaryOffAxis | src/jana_tools/main/jana_tools.py:411-475 | for any other axis string secondary, common and satellites stay empty, and primary holds the m = 0 reflections |
| Composite.CollectionsOverlap | src/jana_tools/main/jana_tools.py:446-464 | with modulation along b, a main reflection with k = 0 is primary, secondary and common at once, and not a satellite |

## Left out

- File discovery and reading: the `glob` loops, `open`, `readlines`, and the `jana_data[i]` dataset index plumbing (`try`/`except` around `update`). Each parser takes the lines of one file.
- The constructor, directory navigation and `jana_io` export: they are outside the parsers.
- `make_peak_dataframes`: it builds pandas frames and has no parsing logic.
- Floating point: floats are carried as reals and never computed with. `float()`, `is_number` and the conversions `convert_to_q`, `convert_to_s`, `calc_tth_from_d` and the X-ray d-spacing formula are uninterpreted functions passed in as `Numerics`. So the d-spacing/angle round trip is not stated. These conversions are total in the model, so it assumes they never raise; for example, a time-of-flight row with d = 0.0 is read as if `convert_to_s` succeeded (jana_tools.py:228-232), although that routine, which is not part of this model, may well raise there.
- `convert_to_q` appears as two routines: `qFromTth` on reals for the reflection reader and `tryQ` on Python values for the pattern reader, which may raise. The predicate `QAgrees` links them; only `Pattern.QForFloats` relies on it.
- Hover text of reflection rows: it is built from `np.around` of floats. It is a parameter `hover(kind, reflection)`, and the model only tracks which text lands where.
- Hover text of the composite collections: always empty (see above), so the `ht` field is not modelled.
- The notice printed in non-modulated mode: it is output only; the model proves that nothing is recorded.
- PyText.IntParse: accepts digit runs of any length. From Python 3.11 on, `int()` refuses a decimal string of more than 4300 digits by default (`sys.int_info.default_max_str_digits`), and `f'{i}'` refuses an integer of that size. Such a token would then go to `float()` in `_is_string` and raise in the reflection reader. The limit depends on the Python version, and the package allows any Python from 3.6 on.
- `int()` on non-ASCII digits: Python accepts Unicode decimal digits, but the model accepts ASCII digits only.
- Reflections.Kind: `str.lower()` is modelled on ASCII letters only. No non-ASCII character lower-cases to a letter of "xrd" or "tof", so the column count is unaffected.
- Structure.SymmetryInFileOrder: assumes no four-token `ndim` line names the key `symmetry`, since such a line would store a count there.
- Structure.LatticeVectorsInFileOrder: assumes no four-token `ndim` line names the key `lattvec`, for the same reason.

=== FILE: composite.dfy ===
/** The composite classifier (`categorize_composite_hklm`): every reflection
    of a dataset, main bucket first and satellite bucket second, is matched
    against four independent conditions and copied into each of the
    primary, secondary, common and satellite collections whose condition it
    meets. The collections overlap. */
module Composite {
  import opened Values
  import opened Reflections

  /** One collection: the peaks keyed by its own counter and the parallel
      angle, q, d and s lists. */
  datatype Collection = Collection(
    peaks: seq<(int, Reflection)>,
    count: int,
    tth: seq<real>,
    q: seq<real>,
    d: seq<real>,
    s: seq<real>
  )

  const EmptyCollection := Collection([], 0, [], [], [], [])

  /** The four collections stored under `composite_hklm`. */
  datatype CompositeHklm = CompositeHklm(primary: Collection, secondary: Collection, common: Collection, satellites: Collection)

  const EmptyComposite := CompositeHklm(EmptyCollection, EmptyCollection, EmptyCollection, EmptyCollection)

  /** `common_h`, `common_k`, `common_l`: the index the modulation axis
      names is set to 0, the others stay None. */
  datatype CommonAxes = CommonAxes(h: Option<int>, k: Option<int>, l: Option<int>)

  function CommonFor(axis: string): (c: CommonAxes)
  {
    if axis == "a" then CommonAxes(Some(0), None, None)
    else if axis == "b" then CommonAxes(None, Some(0), None)
    else if axis == "c" then CommonAxes(None, None, Some(0))
    else CommonAxes(None, None, None)
  }

  /** The four flags of one reflection, computed as the loop body computes
      them: (primary, secondary, common, satellite). A None common index
      never equals an integer. */
  function Flags(c: CommonAxes, r: Reflection): (bool, bool, bool, bool)
  {
    var addCommon :=
      (c.h == Some(r.h) && r.m == 0) || (c.k == Some(r.k) && r.m == 0) || (c.l == Some(r.l) && r.m == 0);
    var addPrimary := r.m == 0;
    var addSecondary := c.h == Some(r.h) || c.k == Some(r.k) || c.l == Some(r.l);
    var addSatellite :=
      if r.m != 0 then
        if c.h != Some(r.h) && c.h != None then true
        else if c.k != Some(r.k) && c.k != None then true
        else if c.l != Some(r.l) && c.l != None then true
        else false
      else false;
    (addPrimary, addSecondary, addCommon, addSatellite)
  }

  /** Appends a reflection under the collection's counter. */
  function Append(c: Collection, r: Reflection): Collection
  {
    Collection(Put(c.peaks, c.count, r), c.count + 1, c.tth + [r.tth], c.q + [r.q], c.d + [r.d], c.s + [r.s])
  }

  /** One pass of the loop body. */
  function Visit(axes: CommonAxes, acc: CompositeHklm, r: Reflection): CompositeHklm
  {
    var (p, sec, com, sat) := Flags(axes, r);
    CompositeHklm(
      if p then Append(acc.primary, r) else acc.primary,
      if sec then Append(acc.secondary, r) else acc.secondary,
      if com then Append(acc.common, r) else acc.common,
      if sat then Append(acc.satellites, r) else acc.satellites)
  }

  function VisitAll(axes: CommonAxes, rows: seq<Reflection>): CompositeHklm
  {
    if |rows| == 0 then EmptyComposite
    else Visit(axes, VisitAll(axes, rows[..|rows| - 1]), rows[|rows| - 1])
  }

  /** The visiting order: the `main` peaks, then the `satellite` peaks, each
      in key order. */
  function VisitOrder(data: HklmData): seq<Reflection>
  {
    ValuesOf(data.main.peaks) + ValuesOf(data.satellite.peaks)
  }

  /** `categorize_composite_hklm(modulation_axis=axis)` on a dataset's
      `hklm_data`. */
  function Categorize(data: HklmData, axis: string): CompositeHklm
  {
    VisitAll(CommonFor(axis), VisitOrder(data))
  }

  // ---------------------------------------------------------------------
  // What the flags mean

  /** The index the modulation axis selects (h for a, k for b, l for c);
      None for any other axis. */
  function Sel(axis: string, r: Reflection): Option<int>
  {
    if axis == "a" then Some(r.h)
    else if axis == "b" then Some(r.k)
    else if axis == "c" then Some(r.l)
    else None
  }

  datatype Family = Primary | Secondary | Common | Satellite

  /** The intended meaning of each collection in terms of m and the selected
      index. */
  predicate Belongs(f: Family, axis: string, r: Reflection)
  {
    match f
    case Primary => r.m == 0
    case Secondary => Sel(axis, r) == Some(0)
    case Common => r.m == 0 && Sel(axis, r) == Some(0)
    case Satellite => r.m != 0 && Sel(axis, r).Some? && Sel(axis, r) != Some(0)
  }

  function FlagOf(f: Family, flags: (bool, bool, bool, bool)): bool
  {
    match f
    case Primary => flags.0
    case Secondary => flags.1
    case Common => flags.2
    case Satellite => flags.3
  }

  /** The flags the loop body computes are exactly the intended meanings:
      primary iff m = 0, secondary iff the selected index is 0, common iff
      both, satellite iff m != 0 and the selected index exists and is not 0. */
  lemma FlagsMeaning(axis: string, r: Reflection, f: Family)
    ensures FlagOf(f, Flags(CommonFor(axis), r)) <==> Belongs(f, axis, r)
  {
  }

  function CollectionOf(f: Family, out: CompositeHklm): Collection
  {
    match f
    case Primary => out.primary
    case Secondary => out.secondary
    case Common => out.common
    case Satellite => out.satellites
  }

  /** The visited reflections that belong to family `f`, in visiting order. */
  function Members(f: Family, axis: string, rows: seq<Reflection>): (r: seq<Reflection>)
  {
    if |rows| == 0 then []
    else
      var k := |rows| - 1;
      Members(f, axis, rows[..k]) + (if Belongs(f, axis, rows[k]) then [rows[k]] else [])
  }

  lemma {:induction false} MembersElements(f: Family, axis: string, rows: seq<Reflection>, x: Reflection)
    ensures x in Members(f, axis, rows) <==> x in rows && Belongs(f, axis, x)
  {
    if |rows| > 0 {
      var k := |rows| - 1;
      MembersElements(f, axis, rows[..k], x);
      assert rows == rows[..k] + [rows[k]];
    }
  }

  /** A collection holds exactly `rows`: keys 0..n-1 in visiting order, the
      reflections as values, and the parallel lists in step with them. */
  predicate Holds(c: Collection, rows: seq<Reflection>)
  {
    && IndexKeyed(c.peaks)
    && c.count == |c.peaks|
    && ValuesOf(c.peaks) == rows
    && |c.tth| == |rows| && |c.q| == |rows| && |c.d| == |rows| && |c.s| == |rows|
    && (forall i :: 0 <= i < |rows| ==>
          c.tth[i] == rows[i].tth && c.q[i] == rows[i].q && c.d[i] == rows[i].d && c.s[i] == rows[i].s)
  }

  lemma AppendHolds(c: Collection, rows: seq<Reflection>, r: Reflection)
    requires Holds(c, rows)
    ensures Holds(Append(c, r), rows + [r])
  {
    PutNextKey(c.peaks, r);
    assert ValuesOf(Append(c, r).peaks) == ValuesOf(c.peaks) + [r];
  }

  lemma VisitHolds(axis: string, acc: CompositeHklm, rows: seq<Reflection>, r: Reflection, f: Family)
    requires Holds(CollectionOf(f, acc), Members(f, axis, rows))
    ensures Holds(CollectionOf(f, Visit(CommonFor(axis), acc, r)), Members(f, axis, rows + [r]))
  {
    assert (rows + [r])[..|rows|] == rows;
    FlagsMeaning(axis, r, f);
    if Belongs(f, axis, r) {
      AppendHolds(CollectionOf(f, acc), Members(f, axis, rows), r);
    }
  }

  /** Each collection holds exactly the visited reflections of its family,
      in visiting order, keyed 0..n-1, with the angle, q, d and s lists in
      step. */
  lemma {:induction false} VisitAllHolds(axis: string, rows: seq<Reflection>, f: Family)
    ensures Holds(CollectionOf(f, VisitAll(CommonFor(axis), rows)), Members(f, axis, rows))
  {
    if |rows| > 0 {
      var k := |rows| - 1;
      VisitAllHolds(axis, rows[..k], f);
      VisitHolds(axis, VisitAll(CommonFor(axis), rows[..k]), rows[..k], rows[k], f);
      assert rows[..k] + [rows[k]] == rows;
    }
  }

  /** The collections of a dataset, main peaks visited before satellite
      peaks. */
  lemma CategorizeHolds(data: HklmData, axis: string, f: Family)
    ensures Holds(CollectionOf(f, Categorize(data, axis)), Members(f, axis, VisitOrder(data)))
  {
    VisitAllHolds(axis, VisitOrder(data), f);
  }

  /** A reflection is in a collection exactly when it was visited and
      belongs to that collection's family. */
  lemma InCollection(data: HklmData, axis: string, f: Family, x: Reflection)
    ensures x in ValuesOf(CollectionOf(f, Categorize(data, axis)).peaks) <==>
      x in VisitOrder(data) && Belongs(f, axis, x)
  {
    CategorizeHolds(data, axis, f);
    MembersElements(f, axis, VisitOrder(data), x);
  }

  // ---------------------------------------------------------------------
  // Relations between the collections

  /** Common is the intersection of primary and secondary. */
  lemma CommonIsIntersection(data: HklmData, axis: string, x: Reflection)
    ensures var out := Categorize(data, axis);
      x in ValuesOf(out.common.peaks) <==>
        x in ValuesOf(out.primary.peaks) && x in ValuesOf(out.secondary.peaks)
  {
    InCollection(data, axis, Common, x);
    InCollection(data, axis, Primary, x);
    InCollection(data, axis, Secondary, x);
  }

  /** No satellite is also primary or secondary. */
  lemma SatellitesDisjoint(data: HklmData, axis: string, x: Reflection)
    ensures var out := Categorize(data, axis);
      x in ValuesOf(out.satellites.peaks) ==>
        x !in ValuesOf(out.primary.peaks) && x !in ValuesOf(out.secondary.peaks)
  {
    InCollection(data, axis, Satellite, x);
    InCollection(data, axis, Primary, x);
    InCollection(data, axis, Secondary, x);
  }

  /** For the axes a, b and c every reflection lands in primary, secondary
      or satellites. */
  lemma Coverage(data: HklmData, axis: string, x: Reflection)
    requires axis == "a" || axis == "b" || axis == "c"
    requires x in VisitOrder(data)
    ensures var out := Categorize(data, axis);
      x in ValuesOf(out.primary.peaks) || x in ValuesOf(out.secondary.peaks) || x in ValuesOf(out.satellites.peaks)
  {
    InCollection(data, axis, Primary, x);
    InCollection(data, axis, Secondary, x);
    InCollection(data, axis, Satellite, x);
  }

  lemma {:induction false} NoMembersOffAxis(f: Family, axis: string, rows: seq<Reflection>)
    requires axis != "a" && axis != "b" && axis != "c"
    requires f != Primary
    ensures Members(f, axis, rows) == []
  {
    if |rows| > 0 {
      NoMembersOffAxis(f, axis, rows[..|rows| - 1]);
    }
  }

  /** For any other axis string only primary is filled; the other three
      collections stay empty. */
  lemma OnlyPrimaryOffAxis(data: HklmData, axis: string)
    requires axis != "a" && axis != "b" && axis != "c"
    ensures var out := Categorize(data, axis);
      && out.secondary.peaks == [] && out.common.peaks == [] && out.satellites.peaks == []
      && ValuesOf(out.primary.peaks) == Members(Primary, axis, VisitOrder(data))
  {
    CategorizeHolds(data, axis, Primary);
    CategorizeHolds(data, axis, Secondary);
    CategorizeHolds(data, axis, Common);
    CategorizeHolds(data, axis, Satellite);
    NoMembersOffAxis(Secondary, axis, VisitOrder(data));
    NoMembersOffAxis(Common, axis, VisitOrder(data));
    NoMembersOffAxis(Satellite, axis, VisitOrder(data));
  }

  /** The collections overlap: with modulation along b, a main reflection
      with k = 0 is primary, secondary and common at once. */
  lemma CollectionsOverlap(data: HklmData, axis: string, x: Reflection)
    requires axis == "b"
    requires x in VisitOrder(data) && x.m == 0 && x.k == 0
    ensures var out := Categorize(data, axis);
      && x in ValuesOf(out.primary.peaks)
      && x in ValuesOf(out.secondary.peaks)
      && x in ValuesOf(out.common.peaks)
      && x !in ValuesOf(out.satellites.peaks)
  {
    InCollection(data, axis, Primary, x);
    InCollection(data, axis, Secondary, x);
    InCollection(data, axis, Common, x);
    InCollection(data, axis, Satellite, x);
  }
}

=== FILE: pattern.dfy ===
/** The pattern-curve reader (`get_pattern_data` on one .m90 file): header
    label/value pairs plus the angle, q, intensity and error columns. */
module Pattern {
  import opened Values
  import opened PyText
  import opened Tokens

  /** The `pattern` record of one dataset. `q` is derived from the angle and
      the header's `lambda` and may lag behind `tth`. */
  datatype PatternData = PatternData(
    header: map<string, PyValue>,
    tth: seq<PyValue>,
    q: seq<PyValue>,
    yobs: seq<PyValue>,
    error: seq<PyValue>
  )

  const EmptyPattern := PatternData(map[], [], [], [], [])

  /** Python truthiness of `last_entry`, which is None or a label. */
  predicate Truthy(e: Option<string>)
  {
    e.Some? && |e.value| > 0
  }

  /** The q value appended next to an angle: only when the header already
      holds a `lambda` and the conversion does not raise. */
  function QFor(nums: Numerics, header: map<string, PyValue>, angle: PyValue): seq<PyValue>
  {
    if "lambda" in header then
      match nums.tryQ(angle, header["lambda"])
      case Some(q) => [q]
      case None => []
    else []
  }

  /** With a float `lambda` in the header, a float angle gets the q value
      that `convert_to_q` computes for the reflection lists too. */
  lemma QForFloats(nums: Numerics, header: map<string, PyValue>, t: real, l: real)
    requires QAgrees(nums)
    requires "lambda" in header && header["lambda"] == PyFloat(l)
    ensures QFor(nums, header, PyFloat(t)) == [PyFloat(nums.qFromTth(t, l))]
  {
  }

  /** A numeric token at position `j`: 0 is the angle, 1 the intensity, 2 the
      error; later positions are not recorded. */
  function RecordNumber(nums: Numerics, p: PatternData, j: nat, v: PyValue): PatternData
  {
    if j == 0 then p.(tth := p.tth + [v], q := p.q + QFor(nums, p.header, v))
    else if j == 1 then p.(yobs := p.yobs + [v])
    else if j == 2 then p.(error := p.error + [v])
    else p
  }

  /** One pass of the loop body at position `j`: a pending label takes this
      token as its value, an even-position label opens a new key, and a
      numeric token is recorded by position. */
  function Step(nums: Numerics, p: PatternData, t: Token, j: nat, pending: Option<string>): (PatternData, Option<string>)
  {
    var (p1, pend1) :=
      if Truthy(pending) then (p.(header := p.header[pending.value := t.value]), None)
      else (p, pending);
    var (p2, pend2) :=
      if j % 2 == 0 && t.isLabel then (p1.(header := p1.header[t.text := PyNone]), Some(t.text))
      else (p1, pend1);
    (if t.isLabel then p2 else RecordNumber(nums, p2, j, t.value), pend2)
  }

  /** The loop over the tokens of one line from position `j`, with
      `pending` the label still waiting for its value (`last_entry`). */
  function Walk(nums: Numerics, p: PatternData, ts: seq<Token>, j: nat, pending: Option<string>): PatternData
    requires j <= |ts|
    decreases |ts| - j
  {
    if j == |ts| then p
    else
      var (p', pending') := Step(nums, p, ts[j], j, pending);
      Walk(nums, p', ts, j + 1, pending')
  }

  /** The classified tokens of one line. */
  function LineTokens(nums: Numerics, line: string): seq<Token>
  {
    Lex(nums, CleanLine(line))
  }

  /** One line of the file; the label/value pairing starts afresh on every
      line. */
  function PatternLine(nums: Numerics, p: PatternData, line: string): PatternData
  {
    Walk(nums, p, LineTokens(nums, line), 0, None)
  }

  /** The whole file, line after line, from an empty record. */
  function ParsePattern(nums: Numerics, lines: seq<string>): PatternData
  {
    if |lines| == 0 then EmptyPattern
    else PatternLine(nums, ParsePattern(nums, lines[..|lines| - 1]), lines[|lines| - 1])
  }

  // ---------------------------------------------------------------------
  // Reference reading of one line

  /** The value a numeric token at position `i` contributes, if any. */
  function NumberAt(ts: seq<Token>, i: nat): seq<PyValue>
  {
    if i < |ts| && !ts[i].isLabel then [ts[i].value] else []
  }

  /** The header read two tokens at a time from position `i`: a label at an
      even position takes the token after it as its value, or None when it
      ends the line. */
  function PairHeader(h: map<string, PyValue>, ts: seq<Token>, i: nat): map<string, PyValue>
    decreases |ts| - i
  {
    if i >= |ts| then h
    else
      var h' :=
        if ts[i].isLabel then h[ts[i].text := if i + 1 < |ts| then ts[i + 1].value else PyNone]
        else h;
      PairHeader(h', ts, i + 2)
  }

  /** The lists one token adds, by position. */
  lemma StepColumns(nums: Numerics, p: PatternData, t: Token, j: nat, pending: Option<string>)
    ensures var r := Step(nums, p, t, j, pending).0;
      var n := if t.isLabel then [] else [t.value];
      && r.tth == p.tth + (if j == 0 then n else [])
      && (j != 0 ==> r.q == p.q)
      && (j == 0 && pending == None ==> r.q == p.q + (if n == [] then [] else QFor(nums, p.header, n[0])))
      && r.yobs == p.yobs + (if j == 1 then n else [])
      && r.error == p.error + (if j == 2 then n else [])
  {
  }

  /** What one token does to the header and to the pending label: at an even
      position with nothing pending a label opens its key, at an odd position
      a pending label takes the token as its value. */
  lemma StepHeader(nums: Numerics, p: PatternData, t: Token, j: nat, pending: Option<string>)
    ensures j % 2 == 0 && pending == None ==>
      var (r, pend) := Step(nums, p, t, j, pending);
      && r.header == (if t.isLabel then p.header[t.text := PyNone] else p.header)
      && pend == (if t.isLabel then Some(t.text) else None)
    ensures j % 2 == 1 ==>
      var (r, pend) := Step(nums, p, t, j, pending);
      && r.header == (if Truthy(pending) then p.header[pending.value := t.value] else p.header)
      && pend == (if Truthy(pending) then None else pending)
  {
  }

  /** From position 1 on, the walk no longer touches the angle and q columns,
      and records the intensity and error tokens still ahead of it. */
  lemma {:induction false} WalkColumnsFrom(nums: Numerics, p: PatternData, ts: seq<Token>, j: nat, pending: Option<string>)
    requires 1 <= j <= |ts|
    ensures var r := Walk(nums, p, ts, j, pending);
      && r.tth == p.tth
      && r.q == p.q
      && r.yobs == p.yobs + (if j <= 1 then NumberAt(ts, 1) else [])
      && r.error == p.error + (if j <= 2 then NumberAt(ts, 2) else [])
    decreases |ts| - j
  {
    if j < |ts| {
      var (p', pend') := Step(nums, p, ts[j], j, pending);
      StepColumns(nums, p, ts[j], j, pending);
      WalkColumnsFrom(nums, p', ts, j + 1, pend');
    }
  }

  /** From an even position with nothing pending, the walk builds the same
      header as the pairwise reading. */
  lemma {:induction false} WalkHeaderIsPairwise(nums: Numerics, p: PatternData, ts: seq<Token>, j: nat)
    requires j <= |ts|
    requires j % 2 == 0
    requires forall i :: 0 <= i < |ts| ==> |ts[i].text| > 0
    ensures Walk(nums, p, ts, j, None).header == PairHeader(p.header, ts, j)
    decreases |ts| - j
  {
    if j < |ts| {
      var t := ts[j];
      var (p1, pend1) := Step(nums, p, t, j, None);
      StepHeader(nums, p, t, j, None);
      if j + 1 < |ts| {
        var (p2, pend2) := Step(nums, p1, ts[j + 1], j + 1, pend1);
        StepHeader(nums, p1, ts[j + 1], j + 1, pend1);
        WalkHeaderIsPairwise(nums, p2, ts, j + 2);
        if t.isLabel {
          assert p2.header == p.header[t.text := ts[j + 1].value];
        }
      }
    }
  }

  /** A key that no even-position label names keeps its earlier state. */
  lemma {:induction false} PairHeaderOther(h: map<string, PyValue>, ts: seq<Token>, i: nat, k: string)
    requires forall j :: i <= j < |ts| && (j - i) % 2 == 0 && ts[j].isLabel ==> ts[j].text != k
    ensures k in PairHeader(h, ts, i) <==> k in h
    ensures k in h ==> PairHeader(h, ts, i)[k] == h[k]
    decreases |ts| - i
  {
    if i < |ts| {
      var h' :=
        if ts[i].isLabel then h[ts[i].text := if i + 1 < |ts| then ts[i + 1].value else PyNone]
        else h;
      forall j | i + 2 <= j < |ts| && (j - (i + 2)) % 2 == 0 && ts[j].isLabel
        ensures ts[j].text != k
      {
        assert (j - i) % 2 == 0;
      }
      PairHeaderOther(h', ts, i + 2, k);
    }
  }

  /** The last even-position occurrence of a label decides its value: the
      token after it on the same line, or None when it ends the line. */
  lemma {:induction false} PairHeaderLast(h: map<string, PyValue>, ts: seq<Token>, i: nat, j: nat)
    requires i <= j < |ts| && (j - i) % 2 == 0 && ts[j].isLabel
    requires forall j' :: j < j' < |ts| && (j' - i) % 2 == 0 ==> ts[j'].text != ts[j].text
    ensures ts[j].text in PairHeader(h, ts, i)
    ensures PairHeader(h, ts, i)[ts[j].text] == (if j + 1 < |ts| then ts[j + 1].value else PyNone)
    decreases |ts| - i
  {
    var h' :=
      if ts[i].isLabel then h[ts[i].text := if i + 1 < |ts| then ts[i + 1].value else PyNone]
      else h;
    if j == i {
      forall j' | i + 2 <= j' < |ts| && (j' - (i + 2)) % 2 == 0 && ts[j'].isLabel
        ensures ts[j'].text != ts[j].text
      {
        assert (j' - i) % 2 == 0;
      }
      PairHeaderOther(h', ts, i + 2, ts[j].text);
    } else {
      assert (j - (i + 2)) % 2 == 0;
      forall j' | j < j' < |ts| && (j' - (i + 2)) % 2 == 0
        ensures ts[j'].text != ts[j].text
      {
        assert (j' - i) % 2 == 0;
      }
      PairHeaderLast(h', ts, i + 2, j);
    }
  }

  // ---------------------------------------------------------------------
  // Properties of one line and of a whole file

  /** Every token of a cleaned line has at least one character, so a pending
      label is always truthy. */
  lemma LineTokensNonEmpty(nums: Numerics, line: string)
    ensures forall i :: 0 <= i < |LineTokens(nums, line)| ==> |LineTokens(nums, line)[i].text| > 0
  {
    var ts := LineTokens(nums, line);
    forall i | 0 <= i < |ts| ensures |ts[i].text| > 0 {
      assert NonBlank(CleanLine(line)[i]);
    }
  }

  /** One line appends the angle, intensity and error exactly when tokens 0,
      1 and 2 are numeric, appends q only next to an angle and only when the
      header already held a usable `lambda`, and reads its header pairwise. */
  lemma LineEffect(nums: Numerics, p: PatternData, ts: seq<Token>)
    requires forall i :: 0 <= i < |ts| ==> |ts[i].text| > 0
    ensures var r := Walk(nums, p, ts, 0, None);
      && r.tth == p.tth + NumberAt(ts, 0)
      && r.q == p.q + (if NumberAt(ts, 0) == [] then [] else QFor(nums, p.header, ts[0].value))
      && r.yobs == p.yobs + NumberAt(ts, 1)
      && r.error == p.error + NumberAt(ts, 2)
      && r.header == PairHeader(p.header, ts, 0)
  {
    WalkHeaderIsPairwise(nums, p, ts, 0);
    if |ts| > 0 {
      var (p1, pend1) := Step(nums, p, ts[0], 0, None);
      StepColumns(nums, p, ts[0], 0, None);
      WalkColumnsFrom(nums, p1, ts, 1, pend1);
    }
  }

  /** The same, for a line of the file. */
  lemma PatternLineEffect(nums: Numerics, p: PatternData, line: string)
    ensures var ts := LineTokens(nums, line);
      var r := PatternLine(nums, p, line);
      && r.tth == p.tth + NumberAt(ts, 0)
      && r.q == p.q + (if NumberAt(ts, 0) == [] then [] else QFor(nums, p.header, ts[0].value))
      && r.yobs == p.yobs + NumberAt(ts, 1)
      && r.error == p.error + NumberAt(ts, 2)
      && r.header == PairHeader(p.header, ts, 0)
  {
    LineTokensNonEmpty(nums, line);
    LineEffect(nums, p, LineTokens(nums, line));
  }

  /** A label at an even position of a line, not repeated at a later even
      position, becomes a header key whose value is the next token of the
      same line, or None when the label ends the line. */
  lemma HeaderPairOnLine(nums: Numerics, p: PatternData, ts: seq<Token>, j: nat)
    requires forall i :: 0 <= i < |ts| ==> |ts[i].text| > 0
    requires j < |ts| && j % 2 == 0 && ts[j].isLabel
    requires forall j' :: j < j' < |ts| && j' % 2 == 0 ==> ts[j'].text != ts[j].text
    ensures var r := Walk(nums, p, ts, 0, None);
      && ts[j].text in r.header
      && r.header[ts[j].text] == (if j + 1 < |ts| then ts[j + 1].value else PyNone)
  {
    LineEffect(nums, p, ts);
    forall j' | j < j' < |ts| && (j' - 0) % 2 == 0 ensures ts[j'].text != ts[j].text {
      assert j' % 2 == 0;
    }
    PairHeaderLast(p.header, ts, 0, j);
  }

  /** A key that no even-position label of the line names is left as it was. */
  lemma HeaderUntouched(nums: Numerics, p: PatternData, ts: seq<Token>, k: string)
    requires forall i :: 0 <= i < |ts| ==> |ts[i].text| > 0
    requires forall j :: 0 <= j < |ts| && j % 2 == 0 && ts[j].isLabel ==> ts[j].text != k
    ensures var r := Walk(nums, p, ts, 0, None);
      && (k in r.header <==> k in p.header)
      && (k in p.header ==> r.header[k] == p.header[k])
  {
    LineEffect(nums, p, ts);
    PairHeaderOther(p.header, ts, 0, k);
  }

  /** A numeric value right after a label at position 0 is both the label's
      header value and an intensity: the code records it twice. */
  lemma HeaderValueAlsoIntensity(nums: Numerics, p: PatternData, ts: seq<Token>)
    requires forall i :: 0 <= i < |ts| ==> |ts[i].text| > 0
    requires |ts| >= 2 && ts[0].isLabel && !ts[1].isLabel
    requires forall j' :: 0 < j' < |ts| && j' % 2 == 0 ==> ts[j'].text != ts[0].text
    ensures var r := Walk(nums, p, ts, 0, None);
      && ts[0].text in r.header
      && r.header[ts[0].text] == ts[1].value
      && r.yobs == p.yobs + [ts[1].value]
  {
    LineEffect(nums, p, ts);
    HeaderPairOnLine(nums, p, ts, 0);
  }

  /** Over a whole file, there are never more q values than angles. */
  lemma {:induction false} QNeverOutgrowsAngles(nums: Numerics, lines: seq<string>)
    ensures |ParsePattern(nums, lines).q| <= |ParsePattern(nums, lines).tth|
  {
    if |lines| > 0 {
      var prev := ParsePattern(nums, lines[..|lines| - 1]);
      QNeverOutgrowsAngles(nums, lines[..|lines| - 1]);
      PatternLineEffect(nums, prev, lines[|lines| - 1]);
    }
  }

  /** The numeric tokens at position `i` of every line, in file order. */
  function Column(nums: Numerics, lines: seq<string>, i: nat): seq<PyValue>
  {
    if |lines| == 0 then []
    else Column(nums, lines[..|lines| - 1], i) + NumberAt(LineTokens(nums, lines[|lines| - 1]), i)
  }

  /** The angle, intensity and error columns of a file hold exactly the
      numeric tokens at positions 0, 1 and 2 of its lines, in file order. */
  lemma {:induction false} ColumnsOfFile(nums: Numerics, lines: seq<string>)
    ensures ParsePattern(nums, lines).tth == Column(nums, lines, 0)
    ensures ParsePattern(nums, lines).yobs == Column(nums, lines, 1)
    ensures ParsePattern(nums, lines).error == Column(nums, lines, 2)
  {
    if |lines| > 0 {
      var prev := ParsePattern(nums, lines[..|lines| - 1]);
      ColumnsOfFile(nums, lines[..|lines| - 1]);
      PatternLineEffect(nums, prev, lines[|lines| - 1]);
    }
  }
}

=== FILE: pytext.dfy ===
/** The pieces of Python's str and int behaviour that the parsers rely on:
    which characters are whitespace (for `str.strip()` and `str.split()`,
    and the narrower set `int()` skips), `str.split(' ')`, `str.split()`,
    `str.lower()` on ASCII, `int()` in base 10, and the decimal rendering
    `f'{n}'` of an integer. */
module PyText {
  import opened Values

  /** The characters for which Python's str.isspace() holds; str.strip()
      and str.split() without arguments skip exactly these. */
  predicate IsSpace(c: char)
  {
    || c == ' '
    || ('\t' <= c <= '\r')
    || ('\U{1c}' <= c <= '\U{1f}')
    || c == '\U{85}' || c == '\U{a0}' || c == '\U{1680}'
    || ('\U{2000}' <= c <= '\U{200a}')
    || c == '\U{2028}' || c == '\U{2029}' || c == '\U{202f}'
    || c == '\U{205f}' || c == '\U{3000}'
  }

  /** The whitespace int() skips around its digits: ASCII space, tab and
      the line and form feeds, and the non-ASCII whitespace, but not the
      information separators U+001C to U+001F, on which int() raises. */
  predicate IntSpace(c: char)
  {
    IsSpace(c) && !('\U{1c}' <= c <= '\U{1f}')
  }

  /** `s.strip()` is non-empty: some character of `s` is not whitespace. */
  predicate NonBlank(s: string)
  {
    exists i :: 0 <= i < |s| && !IsSpace(s[i])
  }

  predicate NoSpace(s: string)
  {
    forall i :: 0 <= i < |s| ==> !IsSpace(s[i])
  }

  // ---------------------------------------------------------------------
  // str.split(sep) with an explicit one-character separator

  /** `s.split(sep)`: the maximal runs between separators, empty runs kept. */
  function SplitOn(s: string, sep: char): (r: seq<string>)
    ensures |r| >= 1
    ensures forall i :: 0 <= i < |r| ==> sep !in r[i]
    decreases |s|
  {
    if |s| == 0 then [[]]
    else
      var rest := SplitOn(s[1..], sep);
      if s[0] == sep then [[]] + rest
      else [[s[0]] + rest[0]] + rest[1..]
  }

  /** `sep.join(ps)`. */
  function JoinOn(ps: seq<string>, sep: char): string
    requires |ps| >= 1
  {
    if |ps| == 1 then ps[0] else ps[0] + [sep] + JoinOn(ps[1..], sep)
  }

  /** Joining the pieces of a split gives back the string. */
  lemma {:induction false} JoinOfSplit(s: string, sep: char)
    ensures JoinOn(SplitOn(s, sep), sep) == s
    decreases |s|
  {
    if |s| > 0 {
      var rest := SplitOn(s[1..], sep);
      JoinOfSplit(s[1..], sep);
      if s[0] == sep {
        assert SplitOn(s, sep)[1..] == rest;
        assert s == [s[0]] + s[1..];
      } else {
        var r := SplitOn(s, sep);
        assert r[1..] == rest[1..];
        if |rest| == 1 {
          assert s == [s[0]] + s[1..];
        } else {
          assert JoinOn(rest, sep) == rest[0] + [sep] + JoinOn(rest[1..], sep);
          assert s == [s[0]] + s[1..];
        }
      }
    }
  }

  /** A prefix free of separators becomes the start of the first piece. */
  lemma {:induction false} SplitPrefix(a: string, b: string, sep: char)
    requires sep !in a
    ensures SplitOn(a + b, sep) == [a + SplitOn(b, sep)[0]] + SplitOn(b, sep)[1..]
    decreases |a|
  {
    if |a| > 0 {
      assert (a + b)[1..] == a[1..] + b;
      SplitPrefix(a[1..], b, sep);
      assert [a[0]] + (a[1..] + SplitOn(b, sep)[0]) == a + SplitOn(b, sep)[0];
    } else {
      var r := SplitOn(b, sep);
      assert a + b == b;
      assert a + r[0] == r[0];
      assert r == [r[0]] + r[1..];
    }
  }

  /** Splitting a join of separator-free pieces gives back the pieces. */
  lemma {:induction false} SplitOfJoin(ps: seq<string>, sep: char)
    requires |ps| >= 1
    requires forall i :: 0 <= i < |ps| ==> sep !in ps[i]
    ensures SplitOn(JoinOn(ps, sep), sep) == ps
    decreases |ps|
  {
    if |ps| == 1 {
      SplitPrefix(ps[0], [], sep);
      assert ps[0] + [] == ps[0];
    } else {
      var tail := JoinOn(ps[1..], sep);
      SplitOfJoin(ps[1..], sep);
      assert ([sep] + tail)[1..] == tail;
      assert SplitOn([sep] + tail, sep) == [[]] + ps[1..];
      assert ps[0] + [sep] + tail == ps[0] + ([sep] + tail);
      SplitPrefix(ps[0], [sep] + tail, sep);
      assert ps[0] + [] == ps[0];
      assert ps == [ps[0]] + ps[1..];
    }
  }

  // ---------------------------------------------------------------------
  // str.split() without arguments

  /** Length of the leading run of non-whitespace characters. */
  function WordLen(s: string): (n: nat)
    ensures n <= |s|
    ensures forall i :: 0 <= i < n ==> !IsSpace(s[i])
    ensures n < |s| ==> IsSpace(s[n])
  {
    if |s| == 0 || IsSpace(s[0]) then 0 else 1 + WordLen(s[1..])
  }

  /** `s.split()`: the maximal runs of non-whitespace characters, in order. */
  function Words(s: string): (r: seq<string>)
    ensures forall i :: 0 <= i < |r| ==> |r[i]| > 0 && NoSpace(r[i])
    decreases |s|
  {
    if |s| == 0 then []
    else if IsSpace(s[0]) then Words(s[1..])
    else
      var n := WordLen(s);
      [s[..n]] + Words(s[n..])
  }

  lemma {:induction false} WordLenOfWord(w: string, rest: string)
    requires NoSpace(w)
    requires |rest| == 0 || IsSpace(rest[0])
    ensures WordLen(w + rest) == |w|
    decreases |w|
  {
    if |w| > 0 {
      assert (w + rest)[1..] == w[1..] + rest;
      WordLenOfWord(w[1..], rest);
    } else {
      assert w + rest == rest;
    }
  }

  /** Words separated by single spaces split back into the same words. */
  lemma {:induction false} WordsOfJoin(ws: seq<string>)
    requires |ws| >= 1
    requires forall i :: 0 <= i < |ws| ==> |ws[i]| > 0 && NoSpace(ws[i])
    ensures Words(JoinOn(ws, ' ')) == ws
    decreases |ws|
  {
    var w := ws[0];
    if |ws| == 1 {
      WordLenOfWord(w, []);
      assert w + [] == w;
      assert w[|w|..] == [];
      assert w[..|w|] == w;
    } else {
      var tail := JoinOn(ws[1..], ' ');
      var s := w + [' '] + tail;
      WordLenOfWord(w, [' '] + tail);
      assert s == w + ([' '] + tail);
      assert s[..|w|] == w;
      assert s[|w|..] == [' '] + tail;
      assert ([' '] + tail)[1..] == tail;
      WordsOfJoin(ws[1..]);
      assert ws == [w] + ws[1..];
    }
  }

  // ---------------------------------------------------------------------
  // The whitespace int() skips, and str.lower()

  function IntStripLeft(s: string): (r: string)
    ensures |r| == 0 || !IntSpace(r[0])
    ensures |r| <= |s| && r == s[|s| - |r|..]
  {
    if |s| > 0 && IntSpace(s[0]) then IntStripLeft(s[1..]) else s
  }

  function IntStripRight(s: string): (r: string)
    ensures |r| == 0 || !IntSpace(r[|r| - 1])
    ensures |r| <= |s| && r == s[..|r|]
  {
    if |s| > 0 && IntSpace(s[|s| - 1]) then IntStripRight(s[..|s| - 1]) else s
  }

  /** `s` without the leading and trailing whitespace int() skips. */
  function IntStrip(s: string): (r: string)
    ensures |r| == 0 || (!IntSpace(r[0]) && !IntSpace(r[|r| - 1]))
  {
    var t := IntStripRight(IntStripLeft(s));
    assert |t| > 0 ==> t[0] == IntStripLeft(s)[0];
    t
  }

  /** A string that neither starts nor ends with such whitespace is its own
      strip. */
  lemma IntStripTrimmed(s: string)
    requires |s| > 0 && !IntSpace(s[0]) && !IntSpace(s[|s| - 1])
    ensures IntStrip(s) == s
  {
  }

  function LowerChar(c: char): char
  {
    if 'A' <= c <= 'Z' then (c as int + 32) as char else c
  }

  /** `s.lower()` on ASCII letters; other characters are left as they are. */
  function Lower(s: string): (r: string)
    ensures |r| == |s|
    ensures forall i :: 0 <= i < |s| ==> r[i] == LowerChar(s[i])
  {
    seq(|s|, i requires 0 <= i < |s| => LowerChar(s[i]))
  }

  // ---------------------------------------------------------------------
  // int() in base 10 and f'{n}'

  predicate IsDigit(c: char)
  {
    '0' <= c <= '9'
  }

  function DigitValue(c: char): nat
    requires IsDigit(c)
  {
    c as int - '0' as int
  }

  function DigitChar(d: nat): (c: char)
    requires d < 10
    ensures IsDigit(c) && DigitValue(c) == d
  {
    (d + '0' as int) as char
  }

  predicate DigitsOrUnderscores(s: string)
  {
    forall i :: 0 <= i < |s| ==> IsDigit(s[i]) || s[i] == '_'
  }

  /** The digit strings int() accepts: ASCII digits, with single underscores
      allowed between two digits. */
  predicate DigitRun(s: string)
  {
    && |s| > 0
    && IsDigit(s[0])
    && IsDigit(s[|s| - 1])
    && DigitsOrUnderscores(s)
    && forall i :: 0 <= i < |s| - 1 ==> !(s[i] == '_' && s[i + 1] == '_')
  }

  /** The number the digits of `s` spell, underscores ignored. */
  function RunValue(s: string): nat
    requires DigitsOrUnderscores(s)
  {
    if |s| == 0 then 0
    else if s[|s| - 1] == '_' then RunValue(s[..|s| - 1])
    else RunValue(s[..|s| - 1]) * 10 + DigitValue(s[|s| - 1])
  }

  /** `int(s)`: surrounding whitespace (in the sense of `IntSpace`) is skipped, an optional sign is read,
      then a digit run; None where int() raises ValueError. */
  function IntParse(s: string): Option<int>
  {
    var t := IntStrip(s);
    if |t| > 0 && (t[0] == '+' || t[0] == '-') then
      var body := t[1..];
      if DigitRun(body) then
        var v: int := RunValue(body);
        Some(if t[0] == '-' then -v else v)
      else None
    else if DigitRun(t) then Some(RunValue(t))
    else None
  }

  /** int() does not skip an information separator: "\x1c7" is no
      integer, although str.split() would treat U+001C as whitespace. */
  lemma IntRejectsSeparator(t: string)
    requires t == ['\U{1c}', '7']
    ensures IntParse(t) == None
  {
    IntStripTrimmed(t);
    assert !IsDigit(t[0]);
  }

  /** `f'{n}'` for a natural number: its decimal digits. */
  function NatText(n: nat): (r: string)
    ensures |r| > 0
    ensures forall i :: 0 <= i < |r| ==> IsDigit(r[i])
  {
    if n < 10 then [DigitChar(n)] else NatText(n / 10) + [DigitChar(n % 10)]
  }

  /** `f'{i}'` for an integer. */
  function IntText(i: int): string
  {
    if i < 0 then "-" + NatText(-i) else NatText(i)
  }

  lemma {:induction false} NatTextValue(n: nat)
    ensures DigitRun(NatText(n))
    ensures RunValue(NatText(n)) == n
  {
    if n >= 10 {
      NatTextValue(n / 10);
      var r := NatText(n);
      assert r[..|r| - 1] == NatText(n / 10);
    }
  }

  /** Rendering an integer with f'{i}' and reading it back with int() gives
      the same integer. */
  lemma IntParseOfText(i: int)
    ensures IntParse(IntText(i)) == Some(i)
  {
    var t := IntText(i);
    if i < 0 {
      NatTextValue(-i);
      IntStripTrimmed(t);
      assert t[1..] == NatText(-i);
    } else {
      NatTextValue(i);
      IntStripTrimmed(t);
    }
  }
}

=== FILE: reflections.dfy ===
/** The reflection-list reader (`prf_file_parser` on one .prf file): rows of
    the right width become reflections, sorted into the `main` bucket (m = 0)
    and the `satellite` bucket (m != 0), each keyed by its own counter and
    carrying parallel angle, q, hover-text and time-of-flight lists. */
module Reflections {
  import opened Values
  import opened PyText
  import opened Tokens

  /** One reflection as stored under a bucket's `peaks`. `fwhm` is None for
      time-of-flight data; `tof` is present for time-of-flight data only. */
  datatype Reflection = Reflection(
    hklm: string,
    h: int, k: int, l: int, m: int,
    tth: real, q: real, s: real, d: real,
    fsq: real,
    fwhm: Option<real>,
    tof: Option<real>
  )

  /** The keyword arguments of the parser. `numColsArg` is
      `kwargs.get('num_cols')`, PyNone when it is not given. */
  datatype PrfConfig = PrfConfig(
    modulated: bool,
    dataType: string,
    lambda: real,
    numColsArg: PyValue
  )

  /** The hover text of a reflection in the bucket called `kind`; built from
      rounded floats and not modelled. */
  type HoverText = (string, Reflection) -> string

  /** `data_type.lower()`. */
  function Kind(cfg: PrfConfig): string
  {
    Lower(cfg.dataType)
  }

  /** `num_cols`: 17 for X-ray and 13 for time-of-flight data, unless an int
      keyword argument overrides it (a bool is an int in Python, worth 0 or
      1). None where the name is left unbound. */
  function NumCols(cfg: PrfConfig): Option<int>
  {
    var base :=
      if Kind(cfg) == "xrd" then Some(17)
      else if Kind(cfg) == "tof" then Some(13)
      else None;
    match cfg.numColsArg
    case PyInt(n) => Some(n)
    case PyBool(b) => Some(if b then 1 else 0)
    case _ => base
  }

  /** `f'{h} {k} {l} {m}'`. */
  function HklmText(h: int, k: int, l: int, m: int): string
  {
    JoinOn([IntText(h), IntText(k), IntText(l), IntText(m)], ' ')
  }

  /** The conversions a row needs succeed: int() on the first four columns,
      float() on the columns the data type reads, and the data type is one
      of the two the parser knows (otherwise the row's angle is never bound). */
  predicate RowOk(nums: Numerics, kind: string, toks: seq<string>)
  {
    && |toks| >= 4
    && (forall i :: 0 <= i < 4 ==> IntParse(toks[i]).Some?)
    && (kind == "xrd" || kind == "tof")
    && (kind == "xrd" ==>
          |toks| > 10 && nums.parseFloat(toks[8]).Some? && nums.parseFloat(toks[9]).Some?
          && nums.parseFloat(toks[10]).Some?)
    && (kind == "tof" ==>
          |toks| > 10 && nums.parseFloat(toks[6]).Some? && nums.parseFloat(toks[9]).Some?
          && nums.parseFloat(toks[10]).Some?)
  }

  /** The reflection a row describes. X-ray rows read F^2, FWHM and the angle
      from columns 8, 9 and 10 and derive d from the angle; time-of-flight
      rows read the flight time, F^2 and d from columns 6, 9 and 10 and
      derive the angle from d. Both derive q from the angle and s from d. */
  function RowOf(nums: Numerics, cfg: PrfConfig, toks: seq<string>): (r: Reflection)
    requires RowOk(nums, Kind(cfg), toks)
    ensures IntParse(toks[0]) == Some(r.h) && IntParse(toks[1]) == Some(r.k)
    ensures IntParse(toks[2]) == Some(r.l) && IntParse(toks[3]) == Some(r.m)
    ensures r.hklm == HklmText(r.h, r.k, r.l, r.m)
    ensures r.q == nums.qFromTth(r.tth, cfg.lambda) && r.s == nums.sFromD(r.d)
    ensures Kind(cfg) == "xrd" ==>
      && Some(r.fsq) == nums.parseFloat(toks[8])
      && Some(r.tth) == nums.parseFloat(toks[10])
      && r.d == nums.dFromTth(cfg.lambda, r.tth)
      && r.fwhm == nums.parseFloat(toks[9]) && r.tof == None
    ensures Kind(cfg) == "tof" ==>
      && Some(r.fsq) == nums.parseFloat(toks[9])
      && Some(r.d) == nums.parseFloat(toks[10])
      && r.tth == nums.tthFromD(cfg.lambda, r.d)
      && r.fwhm == None && r.tof == nums.parseFloat(toks[6])
  {
    var h := IntParse(toks[0]).value;
    var k := IntParse(toks[1]).value;
    var l := IntParse(toks[2]).value;
    var m := IntParse(toks[3]).value;
    if Kind(cfg) == "xrd" then
      var fsq := nums.parseFloat(toks[8]).value;
      var tth := nums.parseFloat(toks[10]).value;
      var d := nums.dFromTth(cfg.lambda, tth);
      Reflection(HklmText(h, k, l, m), h, k, l, m, tth, nums.qFromTth(tth, cfg.lambda),
        nums.sFromD(d), d, fsq, Some(nums.parseFloat(toks[9]).value), None)
    else
      var fsq := nums.parseFloat(toks[9]).value;
      var d := nums.parseFloat(toks[10]).value;
      var tth := nums.tthFromD(cfg.lambda, d);
      Reflection(HklmText(h, k, l, m), h, k, l, m, tth, nums.qFromTth(tth, cfg.lambda),
        nums.sFromD(d), d, fsq, None, Some(nums.parseFloat(toks[6]).value))
  }

  /** X-ray rows keep F^2 (column 8) and the FWHM (column 9) apart: when
      the two columns read differently, so do the stored values. */
  lemma XrdFsqAndFwhmSeparate(nums: Numerics, cfg: PrfConfig, toks: seq<string>)
    requires RowOk(nums, Kind(cfg), toks) && Kind(cfg) == "xrd"
    requires nums.parseFloat(toks[8]) != nums.parseFloat(toks[9])
    ensures RowOf(nums, cfg, toks).fwhm != Some(RowOf(nums, cfg, toks).fsq)
  {
  }

  // ---------------------------------------------------------------------
  // The fold over the lines

  /** A bucket while the file is read: the peaks dictionary, its counter, and
      the parallel lists `*_tth`, `*_q`, `*_tof` and `*_ht`. */
  datatype Bucket = Bucket(
    peaks: seq<(int, Reflection)>,
    count: int,
    tth: seq<real>,
    q: seq<real>,
    tof: seq<real>,
    hover: seq<string>
  )

  const EmptyBucket := Bucket([], 0, [], [], [], [])

  datatype PrfState = PrfState(main: Bucket, satellite: Bucket)

  const EmptyState := PrfState(EmptyBucket, EmptyBucket)

  /** A reflection stored under the bucket's counter, which then advances. */
  function Add(b: Bucket, r: Reflection, ht: string): Bucket
  {
    Bucket(
      Put(b.peaks, b.count, r),
      b.count + 1,
      b.tth + [r.tth],
      b.q + [r.q],
      b.tof + (if r.tof.Some? then [r.tof.value] else []),
      b.hover + [ht])
  }

  /** A line is a reflection row when the parser is in modulated mode and the
      line has exactly `n` tokens. */
  predicate IsRow(cfg: PrfConfig, n: int, line: string)
  {
    cfg.modulated && |CleanLine(line)| == n
  }

  /** Every row of the file converts without raising. */
  predicate LinesOk(nums: Numerics, cfg: PrfConfig, n: int, lines: seq<string>)
  {
    forall i :: 0 <= i < |lines| ==> IsRow(cfg, n, lines[i]) ==> RowOk(nums, Kind(cfg), CleanLine(lines[i]))
  }

  /** One line: a row goes to `main` when m is 0 and to `satellite`
      otherwise; any other line changes nothing. */
  function PrfLine(nums: Numerics, cfg: PrfConfig, n: int, hover: HoverText, st: PrfState, line: string): PrfState
    requires IsRow(cfg, n, line) ==> RowOk(nums, Kind(cfg), CleanLine(line))
  {
    if IsRow(cfg, n, line) then
      var r := RowOf(nums, cfg, CleanLine(line));
      if r.m == 0 then st.(main := Add(st.main, r, hover("main", r)))
      else st.(satellite := Add(st.satellite, r, hover("satellite", r)))
    else st
  }

  function Fold(nums: Numerics, cfg: PrfConfig, n: int, hover: HoverText, lines: seq<string>): PrfState
    requires LinesOk(nums, cfg, n, lines)
  {
    if |lines| == 0 then EmptyState
    else
      var k := |lines| - 1;
      assert lines[..k][..] == lines[..k];
      PrfLine(nums, cfg, n, hover, Fold(nums, cfg, n, hover, lines[..k]), lines[k])
  }

  // ---------------------------------------------------------------------
  // The result

  /** The numpy arrays and hover list stored next to a bucket's peaks;
      `tof` only for time-of-flight data. */
  datatype Arrays = Arrays(tth: seq<real>, q: seq<real>, hovertemplate: seq<string>, tof: Option<seq<real>>)

  /** A bucket of `hklm_data`: its peaks, and its arrays when they are stored. */
  datatype HklmBucket = HklmBucket(peaks: seq<(int, Reflection)>, arrays: Option<Arrays>)

  datatype HklmData = HklmData(main: HklmBucket, satellite: HklmBucket)

  /** The parser does not raise: the column count is bound before the first
      line is examined, and every row converts. */
  predicate PrfAccepts(nums: Numerics, cfg: PrfConfig, lines: seq<string>)
  {
    |lines| == 0 || (NumCols(cfg).Some? && LinesOk(nums, cfg, NumCols(cfg).value, lines))
  }

  function ArraysOf(cfg: PrfConfig, b: Bucket): Arrays
  {
    Arrays(b.tth, b.q, b.hover, if Kind(cfg) == "tof" then Some(b.tof) else None)
  }

  /** The rows of the file that the parser turns into reflections, in file
      order. */
  function Rows(nums: Numerics, cfg: PrfConfig, n: int, lines: seq<string>): seq<Reflection>
    requires LinesOk(nums, cfg, n, lines)
  {
    if |lines| == 0 then []
    else
      var k := |lines| - 1;
      Rows(nums, cfg, n, lines[..k]) + RowsOfLine(nums, cfg, n, lines[k])
  }

  function PrfRows(nums: Numerics, cfg: PrfConfig, lines: seq<string>): seq<Reflection>
    requires PrfAccepts(nums, cfg, lines)
  {
    if |lines| == 0 then [] else Rows(nums, cfg, NumCols(cfg).value, lines)
  }

  /** The reflections of one bucket: those with m = 0, or those with m != 0. */
  function OfFamily(rows: seq<Reflection>, satellite: bool): (r: seq<Reflection>)
    ensures forall i :: 0 <= i < |r| ==> r[i] in rows && (r[i].m != 0) == satellite
  {
    if |rows| == 0 then []
    else
      var k := |rows| - 1;
      OfFamily(rows[..k], satellite) + (if (rows[k].m != 0) == satellite then [rows[k]] else [])
  }

  /** The flight times of the reflections that carry one, in order. */
  function Tofs(rows: seq<Reflection>): seq<real>
  {
    if |rows| == 0 then []
    else
      var k := |rows| - 1;
      Tofs(rows[..k]) + (if rows[k].tof.Some? then [rows[k].tof.value] else [])
  }

  /** A bucket holds exactly `rows`: keys 0..n-1 in order, the reflections as
      values, and the parallel lists in step with them. */
  predicate BucketHolds(b: Bucket, rows: seq<Reflection>, kind: string, hover: HoverText)
  {
    && IndexKeyed(b.peaks)
    && b.count == |b.peaks|
    && ValuesOf(b.peaks) == rows
    && |b.tth| == |rows| && |b.q| == |rows| && |b.hover| == |rows|
    && (forall i :: 0 <= i < |rows| ==>
          b.tth[i] == rows[i].tth && b.q[i] == rows[i].q && b.hover[i] == hover(kind, rows[i]))
    && b.tof == Tofs(rows)
  }

  /** `prf_file_parser`: both buckets start empty; the main arrays are always
      stored, the satellite arrays only in modulated mode, and the flight
      times only for time-of-flight data. */
  function ParsePrf(nums: Numerics, cfg: PrfConfig, hover: HoverText, lines: seq<string>): (r: HklmData)
    requires PrfAccepts(nums, cfg, lines)
    ensures r.main.arrays.Some?
    ensures r.satellite.arrays.Some? <==> cfg.modulated
    ensures r.main.arrays.value.tof.Some? <==> Kind(cfg) == "tof"
    ensures ValuesOf(r.main.peaks) == OfFamily(PrfRows(nums, cfg, lines), false)
    ensures ValuesOf(r.satellite.peaks) == OfFamily(PrfRows(nums, cfg, lines), true)
    ensures IndexKeyed(r.main.peaks) && IndexKeyed(r.satellite.peaks)
    ensures var a := r.main.arrays.value;
      |a.tth| == |r.main.peaks| && |a.q| == |r.main.peaks| && |a.hovertemplate| == |r.main.peaks|
    ensures r.satellite.arrays.Some? ==> var a := r.satellite.arrays.value;
      |a.tth| == |r.satellite.peaks| && |a.q| == |r.satellite.peaks| && |a.hovertemplate| == |r.satellite.peaks|
  {
    if |lines| == 0 then Finish(cfg, EmptyState)
    else
      FoldBuckets(nums, cfg, NumCols(cfg).value, hover, lines);
      Finish(cfg, Fold(nums, cfg, NumCols(cfg).value, hover, lines))
  }

  /** The dictionary stored once the last line is read. */
  function Finish(cfg: PrfConfig, st: PrfState): HklmData
  {
    HklmData(
      HklmBucket(st.main.peaks, Some(ArraysOf(cfg, st.main))),
      HklmBucket(st.satellite.peaks, if cfg.modulated then Some(ArraysOf(cfg, st.satellite)) else None))
  }

  // ---------------------------------------------------------------------
  // Properties

  lemma BucketAdd(b: Bucket, rows: seq<Reflection>, kind: string, hover: HoverText, r: Reflection)
    requires BucketHolds(b, rows, kind, hover)
    ensures BucketHolds(Add(b, r, hover(kind, r)), rows + [r], kind, hover)
  {
    PutNextKey(b.peaks, r);
    var b' := Add(b, r, hover(kind, r));
    assert ValuesOf(b'.peaks) == ValuesOf(b.peaks) + [r];
    assert (rows + [r])[..|rows|] == rows;
  }

  lemma OfFamilySnoc(rows: seq<Reflection>, r: Reflection, satellite: bool)
    ensures OfFamily(rows + [r], satellite) == OfFamily(rows, satellite) + (if (r.m != 0) == satellite then [r] else [])
  {
    assert (rows + [r])[..|rows|] == rows;
  }

  /** What one line adds to the rows read so far. */
  function RowsOfLine(nums: Numerics, cfg: PrfConfig, n: int, line: string): seq<Reflection>
    requires IsRow(cfg, n, line) ==> RowOk(nums, Kind(cfg), CleanLine(line))
  {
    if IsRow(cfg, n, line) then [RowOf(nums, cfg, CleanLine(line))] else []
  }

  /** Both buckets keep holding their families when one line is read. */
  lemma LineBuckets(nums: Numerics, cfg: PrfConfig, n: int, hover: HoverText, st: PrfState, rows: seq<Reflection>, line: string)
    requires IsRow(cfg, n, line) ==> RowOk(nums, Kind(cfg), CleanLine(line))
    requires BucketHolds(st.main, OfFamily(rows, false), "main", hover)
    requires BucketHolds(st.satellite, OfFamily(rows, true), "satellite", hover)
    ensures var st' := PrfLine(nums, cfg, n, hover, st, line);
      var rows' := rows + RowsOfLine(nums, cfg, n, line);
      && BucketHolds(st'.main, OfFamily(rows', false), "main", hover)
      && BucketHolds(st'.satellite, OfFamily(rows', true), "satellite", hover)
  {
    if IsRow(cfg, n, line) {
      var r := RowOf(nums, cfg, CleanLine(line));
      OfFamilySnoc(rows, r, false);
      OfFamilySnoc(rows, r, true);
      if r.m == 0 {
        BucketAdd(st.main, OfFamily(rows, false), "main", hover, r);
      } else {
        BucketAdd(st.satellite, OfFamily(rows, true), "satellite", hover, r);
      }
    } else {
      assert rows + RowsOfLine(nums, cfg, n, line) == rows;
    }
  }

  /** The fold fills each bucket with exactly the rows of its family, in file
      order, keyed 0..n-1, with the parallel lists in step. */
  lemma {:induction false} FoldBuckets(nums: Numerics, cfg: PrfConfig, n: int, hover: HoverText, lines: seq<string>)
    requires LinesOk(nums, cfg, n, lines)
    ensures var st := Fold(nums, cfg, n, hover, lines);
      var rows := Rows(nums, cfg, n, lines);
      && BucketHolds(st.main, OfFamily(rows, false), "main", hover)
      && BucketHolds(st.satellite, OfFamily(rows, true), "satellite", hover)
  {
    if |lines| > 0 {
      var k := |lines| - 1;
      assert LinesOk(nums, cfg, n, lines[..k]);
      FoldBuckets(nums, cfg, n, hover, lines[..k]);
      LineBuckets(nums, cfg, n, hover, Fold(nums, cfg, n, hover, lines[..k]), Rows(nums, cfg, n, lines[..k]), lines[k]);
    }
  }

  /** Reading one more line is one more step of the fold. */
  lemma FoldSnoc(nums: Numerics, cfg: PrfConfig, n: int, hover: HoverText, lines: seq<string>, line: string)
    requires LinesOk(nums, cfg, n, lines)
    requires IsRow(cfg, n, line) ==> RowOk(nums, Kind(cfg), CleanLine(line))
    ensures LinesOk(nums, cfg, n, lines + [line])
    ensures Fold(nums, cfg, n, hover, lines + [line]) == PrfLine(nums, cfg, n, hover, Fold(nums, cfg, n, hover, lines), line)
    ensures Rows(nums, cfg, n, lines + [line]) == Rows(nums, cfg, n, lines) + RowsOfLine(nums, cfg, n, line)
  {
    var all := lines + [line];
    assert all[..|lines|] == lines;
    forall i | 0 <= i < |all| && IsRow(cfg, n, all[i]) ensures RowOk(nums, Kind(cfg), CleanLine(all[i])) {
      if i < |lines| {
        assert all[i] == lines[i];
      }
    }
  }

  /** A line whose token count is not `num_cols` adds nothing to either
      bucket. */
  lemma GateSkipsLine(nums: Numerics, cfg: PrfConfig, n: int, hover: HoverText, lines: seq<string>, line: string)
    requires LinesOk(nums, cfg, n, lines)
    requires |CleanLine(line)| != n
    ensures LinesOk(nums, cfg, n, lines + [line])
    ensures Fold(nums, cfg, n, hover, lines + [line]) == Fold(nums, cfg, n, hover, lines)
    ensures Rows(nums, cfg, n, lines + [line]) == Rows(nums, cfg, n, lines)
  {
    FoldSnoc(nums, cfg, n, hover, lines, line);
  }

  /** A row with m = 0 becomes the next `main` peak, under the key that is
      the number of main peaks so far; a row with any other m becomes the
      next `satellite` peak. The other bucket is left as it was. */
  lemma LineRoute(nums: Numerics, cfg: PrfConfig, n: int, hover: HoverText, st: PrfState, line: string)
    requires IsRow(cfg, n, line) && RowOk(nums, Kind(cfg), CleanLine(line))
    requires IndexKeyed(st.main.peaks) && st.main.count == |st.main.peaks|
    requires IndexKeyed(st.satellite.peaks) && st.satellite.count == |st.satellite.peaks|
    ensures var after := PrfLine(nums, cfg, n, hover, st, line);
      var r := RowOf(nums, cfg, CleanLine(line));
      && (r.m == 0 ==>
            after.main.peaks == st.main.peaks + [(|st.main.peaks|, r)]
            && after.satellite == st.satellite)
      && (r.m != 0 ==>
            after.satellite.peaks == st.satellite.peaks + [(|st.satellite.peaks|, r)]
            && after.main == st.main)
  {
    var r := RowOf(nums, cfg, CleanLine(line));
    PutNextKey(st.main.peaks, r);
    PutNextKey(st.satellite.peaks, r);
  }

  /** The same, for a row read after the lines of a file. */
  lemma RoutedByM(nums: Numerics, cfg: PrfConfig, n: int, hover: HoverText, lines: seq<string>, line: string)
    requires LinesOk(nums, cfg, n, lines)
    requires IsRow(cfg, n, line) && RowOk(nums, Kind(cfg), CleanLine(line))
    ensures LinesOk(nums, cfg, n, lines + [line])
    ensures var before := Fold(nums, cfg, n, hover, lines);
      var after := Fold(nums, cfg, n, hover, lines + [line]);
      var r := RowOf(nums, cfg, CleanLine(line));
      && (r.m == 0 ==>
            after.main.peaks == before.main.peaks + [(|before.main.peaks|, r)]
            && after.satellite == before.satellite)
      && (r.m != 0 ==>
            after.satellite.peaks == before.satellite.peaks + [(|before.satellite.peaks|, r)]
            && after.main == before.main)
  {
    FoldSnoc(nums, cfg, n, hover, lines, line);
    FoldBuckets(nums, cfg, n, hover, lines);
    LineRoute(nums, cfg, n, hover, Fold(nums, cfg, n, hover, lines), line);
  }

  /** With `modulated=False` no line is a row, so no peak is recorded. */
  lemma {:induction false} UnmodulatedHasNoRows(nums: Numerics, cfg: PrfConfig, n: int, lines: seq<string>)
    requires !cfg.modulated
    requires LinesOk(nums, cfg, n, lines)
    ensures Rows(nums, cfg, n, lines) == []
  {
    if |lines| > 0 {
      UnmodulatedHasNoRows(nums, cfg, n, lines[..|lines| - 1]);
    }
  }

  lemma UnmodulatedHasNoPeaks(nums: Numerics, cfg: PrfConfig, hover: HoverText, lines: seq<string>)
    requires !cfg.modulated
    requires PrfAccepts(nums, cfg, lines)
    ensures ParsePrf(nums, cfg, hover, lines).main.peaks == []
    ensures ParsePrf(nums, cfg, hover, lines).satellite == HklmBucket([], None)
  {
    if |lines| > 0 {
      UnmodulatedHasNoRows(nums, cfg, NumCols(cfg).value, lines);
    }
  }

  /** The data type is matched without regard to ASCII case. */
  lemma NumColsIgnoresCase(cfg: PrfConfig, other: string)
    requires Lower(other) == Lower(cfg.dataType)
    ensures NumCols(cfg.(dataType := other)) == NumCols(cfg)
  {
  }

  /** Without an int override, X-ray data has 17 columns, time-of-flight
      data 13, and any other data type leaves the count unbound. */
  lemma NumColsDefaults(cfg: PrfConfig)
    requires !cfg.numColsArg.PyInt? && !cfg.numColsArg.PyBool?
    ensures Kind(cfg) == "xrd" ==> NumCols(cfg) == Some(17)
    ensures Kind(cfg) == "tof" ==> NumCols(cfg) == Some(13)
    ensures NumCols(cfg).Some? <==> (Kind(cfg) == "xrd" || Kind(cfg) == "tof")
  {
  }

  /** An int `num_cols` keyword argument wins over the data type, whatever
      the data type is. */
  lemma NumColsOverride(cfg: PrfConfig, n: int)
    ensures NumCols(cfg.(numColsArg := PyInt(n))) == Some(n)
  {
  }

  /** Upper-case "XRD" selects the X-ray column count. */
  lemma NumColsUpperCase(cfg: PrfConfig)
    requires cfg.dataType == "XRD" && cfg.numColsArg == PyNone
    ensures NumCols(cfg) == Some(17)
  {
    assert Lower("XRD") == "xrd";
  }

  lemma IntTextWord(i: int)
    ensures |IntText(i)| > 0 && NoSpace(IntText(i))
  {
    var t := IntText(i);
    if i < 0 {
      assert t == "-" + NatText(-i);
      forall j | 0 <= j < |t| ensures !IsSpace(t[j]) {
        if j > 0 { assert IsDigit(NatText(-i)[j - 1]); }
      }
    }
  }

  /** The `hklm` text of a reflection splits back into its four indices. */
  lemma HklmRoundTrip(h: int, k: int, l: int, m: int)
    ensures var w := Words(HklmText(h, k, l, m));
      && |w| == 4
      && IntParse(w[0]) == Some(h) && IntParse(w[1]) == Some(k)
      && IntParse(w[2]) == Some(l) && IntParse(w[3]) == Some(m)
  {
    var ws := [IntText(h), IntText(k), IntText(l), IntText(m)];
    IntTextWord(h);
    IntTextWord(k);
    IntTextWord(l);
    IntTextWord(m);
    WordsOfJoin(ws);
    IntParseOfText(h);
    IntParseOfText(k);
    IntParseOfText(l);
    IntParseOfText(m);
  }
}

=== FILE: structure.dfy ===
/** The structure-file reader (`m50_file_parser` on one .m50 file): a state
    machine over lines whose state is the last label seen. Label lines record
    cell parameters, dimensions, modulation vectors, the space group, the
    centering, lattice vectors and symmetry operators; numeric lines after a
    `wmatrix` label are the rows of the W matrix. */
module Structure {
  import opened Values
  import opened PyText

  /** A value stored in the `structure` dictionary. Lists of float lists (the
      W matrix, the lattice vectors) and lists of token lists (the symmetry
      operators) are kept apart; an empty list is whichever its key holds. */
  datatype Entry =
    | Params(values: map<string, real>)
    | Count(n: int)
    | Vector(x: real, y: real, z: real)
    | FloatRows(rows: seq<seq<real>>)
    | SpaceGroup(symbol: string, number: Option<int>, num: Option<int>)
    | Text(t: string)
    | TokenRows(items: seq<seq<string>>)

  /** The dictionary built so far and `previous_label`. */
  datatype M50State = M50State(structure: map<string, Entry>, previous: Option<string>)

  const Start := M50State(map[], None)

  const CellNames: seq<string> := ["a", "b", "c", "al", "be", "ga"]
  const EsdNames: seq<string> := ["esd_a", "esd_b", "esd_c", "esd_al", "esd_be", "esd_ga"]

  /** float() accepts every one of the strings. */
  predicate AllFloats(nums: Numerics, ws: seq<string>)
  {
    forall i :: 0 <= i < |ws| ==> nums.parseFloat(ws[i]).Some?
  }

  /** `[float(v) for v in ws]`. */
  function Floats(nums: Numerics, ws: seq<string>): (r: seq<real>)
    requires AllFloats(nums, ws)
    ensures |r| == |ws|
    ensures forall i :: 0 <= i < |ws| ==> nums.parseFloat(ws[i]) == Some(r[i])
  {
    seq(|ws|, i requires 0 <= i < |ws| => nums.parseFloat(ws[i]).value)
  }

  /** `d[names[k]] = vals[k]` for k = 0, 1, ... on an empty dictionary. */
  function ParamMap(names: seq<string>, vals: seq<real>): map<string, real>
    requires |names| == |vals|
  {
    if |names| == 0 then map[]
    else
      var k := |names| - 1;
      ParamMap(names[..k], vals[..k])[names[k] := vals[k]]
  }

  predicate Distinct(names: seq<string>)
  {
    forall i, j :: 0 <= i < j < |names| ==> names[i] != names[j]
  }

  /** The space group: the symbol always, the number only when the third
      token exists and is an integer, and `num` only when the number was
      read and the fourth token is an integer too. */
  function SpaceGroupOf(w: seq<string>): Entry
    requires |w| >= 2
  {
    var number := if |w| > 2 then IntParse(w[2]) else None;
    var num := if number.Some? && |w| > 3 then IntParse(w[3]) else None;
    SpaceGroup(w[1], number, num)
  }

  /** The W matrix may only be extended while the last label was `wmatrix`,
      and then the dictionary holds a list under that key. */
  predicate Valid(st: M50State)
  {
    st.previous == Some("wmatrix") ==> "wmatrix" in st.structure && st.structure["wmatrix"].FloatRows?
  }

  /** A label line does not raise: each label finds the tokens and
      conversions it reads, and a list it appends to is a list. */
  predicate LabelOk(nums: Numerics, s: map<string, Entry>, w: seq<string>)
    requires |w| > 0
  {
    var tag := w[0];
    && ((tag == "cell" || tag == "esdcell") ==> |w| >= 7 && AllFloats(nums, w[1..7]))
    && (tag == "ndim" ==> |w| >= 2 && IntParse(w[1]).Some? && (|w| == 4 ==> IntParse(w[3]).Some?))
    && ((tag == "qi" || tag == "qr") ==> |w| >= 4 && AllFloats(nums, w[1..4]))
    && ((tag == "spgroup" || tag == "lattice") ==> |w| >= 2)
    && (tag == "lattvec" ==> ("lattvec" !in s || s["lattvec"].FloatRows?) && AllFloats(nums, w[1..]))
    && (tag == "symmetry" ==> "symmetry" !in s || s["symmetry"].TokenRows?)
  }

  /** A line does not raise: it has a first token, and a numeric line that
      extends the W matrix consists of floats. */
  predicate LineOk(nums: Numerics, st: M50State, line: string)
  {
    var w := Words(line);
    && |w| > 0
    && (nums.isNumber(w[0]) ==> (st.previous == Some("wmatrix") ==> AllFloats(nums, w)))
    && (!nums.isNumber(w[0]) ==> LabelOk(nums, st.structure, w))
  }

  /** What a label line stores. Labels the parser does not know store
      nothing. */
  function LabelEffect(nums: Numerics, s: map<string, Entry>, w: seq<string>): map<string, Entry>
    requires |w| > 0 && LabelOk(nums, s, w)
  {
    var tag := w[0];
    if tag == "cell" then s["cell" := Params(ParamMap(CellNames, Floats(nums, w[1..7])))]
    else if tag == "esdcell" then s["esdcell" := Params(ParamMap(EsdNames, Floats(nums, w[1..7])))]
    else if tag == "ndim" then
      var s1 := s["ndim" := Count(IntParse(w[1]).value)];
      if |w| == 4 then s1[w[2] := Count(IntParse(w[3]).value)] else s1
    else if tag == "qi" || tag == "qr" then
      var v := Floats(nums, w[1..4]);
      s[tag := Vector(v[0], v[1], v[2])]
    else if tag == "wmatrix" then s["wmatrix" := FloatRows([])]
    else if tag == "spgroup" then s["spgroup" := SpaceGroupOf(w)]
    else if tag == "lattice" then s["lattice_centering" := Text(w[1])]
    else if tag == "lattvec" then
      var old_rows := if "lattvec" in s then s["lattvec"].rows else [];
      s["lattvec" := FloatRows(old_rows + [Floats(nums, w[1..])])]
    else if tag == "symmetry" then
      var old_items := if "symmetry" in s then s["symmetry"].items else [];
      s["symmetry" := TokenRows(old_items + [w[1..]])]
    else s
  }

  /** One line. A line whose first token is not a number is a label line and
      becomes `previous_label`; a numeric line is a W-matrix row while the
      last label was `wmatrix` and is ignored otherwise. */
  function M50Line(nums: Numerics, st: M50State, line: string): (r: M50State)
    requires Valid(st) && LineOk(nums, st, line)
    ensures Valid(r)
  {
    var w := Words(line);
    if nums.isNumber(w[0]) then
      if st.previous == Some("wmatrix") then
        var m := st.structure["wmatrix"].rows;
        st.(structure := st.structure["wmatrix" := FloatRows(m + [Floats(nums, w)])])
      else st
    else
      M50State(LabelEffect(nums, st.structure, w), Some(w[0]))
  }

  /** The file is read without raising. */
  predicate M50Accepts(nums: Numerics, lines: seq<string>)
    decreases |lines|, 0
  {
    |lines| == 0 ||
    (M50Accepts(nums, lines[..|lines| - 1])
     && LineOk(nums, ParseM50(nums, lines[..|lines| - 1]), lines[|lines| - 1]))
  }

  /** `m50_file_parser`: the state after every line, from an empty
      dictionary and no label. */
  function ParseM50(nums: Numerics, lines: seq<string>): (r: M50State)
    requires M50Accepts(nums, lines)
    ensures Valid(r)
    decreases |lines|, 1
  {
    if |lines| == 0 then Start
    else M50Line(nums, ParseM50(nums, lines[..|lines| - 1]), lines[|lines| - 1])
  }

  /** Reading one more line is one more step of the state machine. */
  lemma M50Snoc(nums: Numerics, lines: seq<string>, line: string)
    requires M50Accepts(nums, lines) && LineOk(nums, ParseM50(nums, lines), line)
    ensures M50Accepts(nums, lines + [line])
    ensures ParseM50(nums, lines + [line]) == M50Line(nums, ParseM50(nums, lines), line)
  {
    assert (lines + [line])[..|lines|] == lines;
  }

  // ---------------------------------------------------------------------
  // One line

  /** `previous_label` changes exactly on lines whose first token is not a
      number, and becomes that token. */
  lemma PreviousOnlyOnLabels(nums: Numerics, st: M50State, line: string)
    requires Valid(st) && LineOk(nums, st, line)
    ensures var w := Words(line);
      M50Line(nums, st, line).previous == (if nums.isNumber(w[0]) then st.previous else Some(w[0]))
  {
  }

  /** A `wmatrix` line starts an empty matrix, whatever was there before. */
  lemma WmatrixResets(nums: Numerics, st: M50State, line: string)
    requires Valid(st) && LineOk(nums, st, line)
    requires Words(line)[0] == "wmatrix" && !nums.isNumber(Words(line)[0])
    ensures M50Line(nums, st, line).structure == st.structure["wmatrix" := FloatRows([])]
    ensures M50Line(nums, st, line).previous == Some("wmatrix")
  {
  }

  /** A numeric line right after `wmatrix` or its rows appends one row, all
      of its tokens as floats; nothing else changes. */
  lemma NumericLineExtendsMatrix(nums: Numerics, st: M50State, line: string)
    requires Valid(st) && LineOk(nums, st, line)
    requires nums.isNumber(Words(line)[0]) && st.previous == Some("wmatrix")
    ensures var r := M50Line(nums, st, line);
      && r.previous == st.previous
      && r.structure["wmatrix"] == FloatRows(st.structure["wmatrix"].rows + [Floats(nums, Words(line))])
      && (forall key :: key != "wmatrix" ==> (key in r.structure <==> key in st.structure))
      && (forall key :: key != "wmatrix" && key in st.structure ==> r.structure[key] == st.structure[key])
  {
  }

  /** A numeric line after any other label, or before any label, changes
      nothing. */
  lemma NumericLineElsewhereInert(nums: Numerics, st: M50State, line: string)
    requires Valid(st) && LineOk(nums, st, line)
    requires nums.isNumber(Words(line)[0]) && st.previous != Some("wmatrix")
    ensures M50Line(nums, st, line) == st
  {
  }

  /** A label the parser does not know only becomes `previous_label`. */
  lemma UnknownLabelIgnored(nums: Numerics, st: M50State, line: string)
    requires Valid(st) && LineOk(nums, st, line)
    requires !nums.isNumber(Words(line)[0])
    requires Words(line)[0] !in {"cell", "esdcell", "ndim", "qi", "qr", "wmatrix", "spgroup", "lattice", "lattvec", "symmetry"}
    ensures M50Line(nums, st, line) == M50State(st.structure, Some(Words(line)[0]))
  {
  }

  /** The keys a line may store under: the W matrix for a row of it, the
      key a known label names (the centering for `lattice`, and also the
      third token for a four-token `ndim` line), nothing otherwise. */
  function Writes(nums: Numerics, st: M50State, line: string): set<string>
    requires |Words(line)| > 0
  {
    var w := Words(line);
    var tag := w[0];
    if nums.isNumber(tag) then (if st.previous == Some("wmatrix") then {"wmatrix"} else {})
    else if tag == "lattice" then {"lattice_centering"}
    else if tag == "ndim" then {"ndim"} + (if |w| == 4 then {w[2]} else {})
    else if tag in {"cell", "esdcell", "qi", "qr", "wmatrix", "spgroup", "lattvec", "symmetry"} then {tag}
    else {}
  }

  /** Nothing else changes: a line leaves every key it does not write as it
      was. */
  lemma LineFrame(nums: Numerics, st: M50State, line: string, key: string)
    requires Valid(st) && LineOk(nums, st, line)
    requires key !in Writes(nums, st, line)
    ensures var s := st.structure;
      var s' := M50Line(nums, st, line).structure;
      (key in s' <==> key in s) && (key in s ==> s'[key] == s[key])
  {
  }

  /** `ndim` always records the dimension; it records a second key and
      value, named by the third token, exactly when the line has four
      tokens. No other key changes. */
  lemma NdimSecondPair(nums: Numerics, s: map<string, Entry>, w: seq<string>)
    requires |w| > 0 && w[0] == "ndim" && LabelOk(nums, s, w)
    ensures var r := LabelEffect(nums, s, w);
      && "ndim" in r
      && (|w| != 4 || w[2] != "ndim" ==> r["ndim"] == Count(IntParse(w[1]).value))
      && (|w| == 4 ==> w[2] in r && r[w[2]] == Count(IntParse(w[3]).value))
      && (forall key :: key != "ndim" && (|w| != 4 || key != w[2]) ==>
            (key in r <==> key in s) && (key in s ==> r[key] == s[key]))
  {
  }

  /** An `spgroup` line stores the space group under `spgroup`: it keeps
      the symbol, and its number and `num` are read only as far as the
      integer conversions succeed, in that order. No other key changes. */
  lemma SpaceGroupPartial(nums: Numerics, s: map<string, Entry>, w: seq<string>)
    requires |w| > 0 && w[0] == "spgroup" && LabelOk(nums, s, w)
    ensures var r := LabelEffect(nums, s, w);
      && "spgroup" in r && r["spgroup"].SpaceGroup?
      && var g := r["spgroup"];
      && g.symbol == w[1]
      && (g.number.Some? <==> |w| > 2 && IntParse(w[2]).Some?)
      && (g.number.Some? ==> Some(g.number.value) == IntParse(w[2]))
      && (g.num.Some? <==> g.number.Some? && |w| > 3 && IntParse(w[3]).Some?)
      && (g.num.Some? ==> Some(g.num.value) == IntParse(w[3]))
    ensures var r := LabelEffect(nums, s, w);
      forall key :: key != "spgroup" ==> (key in r <==> key in s) && (key in s ==> r[key] == s[key])
  {
  }

  /** A `qi` or `qr` line stores the three floats after its label, in
      order, under that label. No other key changes. */
  lemma ModulationVector(nums: Numerics, s: map<string, Entry>, w: seq<string>)
    requires |w| > 0 && (w[0] == "qi" || w[0] == "qr") && LabelOk(nums, s, w)
    ensures var r := LabelEffect(nums, s, w);
      && w[0] in r && r[w[0]].Vector?
      && nums.parseFloat(w[1]) == Some(r[w[0]].x)
      && nums.parseFloat(w[2]) == Some(r[w[0]].y)
      && nums.parseFloat(w[3]) == Some(r[w[0]].z)
    ensures var r := LabelEffect(nums, s, w);
      forall key :: key != w[0] ==> (key in r <==> key in s) && (key in s ==> r[key] == s[key])
  {
    assert w[1..4][0] == w[1] && w[1..4][1] == w[2] && w[1..4][2] == w[3];
  }

  /** A `lattice` line stores its second token as the centering under
      `lattice_centering`; the key `lattice` itself is not written. */
  lemma LatticeCentering(nums: Numerics, s: map<string, Entry>, w: seq<string>)
    requires |w| > 0 && w[0] == "lattice" && LabelOk(nums, s, w)
    ensures var r := LabelEffect(nums, s, w);
      "lattice_centering" in r && r["lattice_centering"] == Text(w[1])
    ensures var r := LabelEffect(nums, s, w);
      forall key :: key != "lattice_centering" ==> (key in r <==> key in s) && (key in s ==> r[key] == s[key])
  {
  }

  /** Assigning distinct names one after another gives each name its own
      value. */
  lemma {:induction false} ParamMapLookup(names: seq<string>, vals: seq<real>)
    requires |names| == |vals| && Distinct(names)
    ensures ParamMap(names, vals).Keys == set i | 0 <= i < |names| :: names[i]
    ensures forall i :: 0 <= i < |names| ==> ParamMap(names, vals)[names[i]] == vals[i]
  {
    if |names| > 0 {
      var k := |names| - 1;
      ParamMapLookup(names[..k], vals[..k]);
      var prev := ParamMap(names[..k], vals[..k]);
      forall i | 0 <= i < k ensures ParamMap(names, vals)[names[i]] == vals[i] {
        assert names[i] != names[k];
        assert names[..k][i] == names[i];
      }
      assert ParamMap(names, vals).Keys == prev.Keys + {names[k]};
      assert (set i | 0 <= i < |names| :: names[i]) == (set i | 0 <= i < k :: names[..k][i]) + {names[k]};
    }
  }

  /** A `cell` line stores the six lattice parameters a, b, c, al, be, ga,
      read from tokens 1 to 6. */
  lemma CellParameters(nums: Numerics, s: map<string, Entry>, w: seq<string>)
    requires |w| > 0 && w[0] == "cell" && LabelOk(nums, s, w)
    ensures var r := LabelEffect(nums, s, w);
      && "cell" in r && r["cell"].Params?
      && r["cell"].values.Keys == (set i | 0 <= i < 6 :: CellNames[i])
      && (forall i :: 0 <= i < 6 ==> nums.parseFloat(w[i + 1]) == Some(r["cell"].values[CellNames[i]]))
  {
    var v := Floats(nums, w[1..7]);
    assert Distinct(CellNames);
    ParamMapLookup(CellNames, v);
    forall i | 0 <= i < 6 ensures nums.parseFloat(w[i + 1]) == Some(v[i]) {
      assert w[1..7][i] == w[i + 1];
    }
  }

  /** An `esdcell` line stores the six standard uncertainties esd_a to
      esd_ga, read from tokens 1 to 6. */
  lemma EsdCellParameters(nums: Numerics, s: map<string, Entry>, w: seq<string>)
    requires |w| > 0 && w[0] == "esdcell" && LabelOk(nums, s, w)
    ensures var r := LabelEffect(nums, s, w);
      && "esdcell" in r && r["esdcell"].Params?
      && r["esdcell"].values.Keys == (set i | 0 <= i < 6 :: EsdNames[i])
      && (forall i :: 0 <= i < 6 ==> nums.parseFloat(w[i + 1]) == Some(r["esdcell"].values[EsdNames[i]]))
  {
    var v := Floats(nums, w[1..7]);
    assert Distinct(EsdNames);
    ParamMapLookup(EsdNames, v);
    forall i | 0 <= i < 6 ensures nums.parseFloat(w[i + 1]) == Some(v[i]) {
      assert w[1..7][i] == w[i + 1];
    }
  }

  // ---------------------------------------------------------------------
  // Whole files

  /** The prefixes of an accepted file are accepted. */
  lemma {:induction false} AcceptsPrefix(nums: Numerics, lines: seq<string>, n: nat)
    requires M50Accepts(nums, lines) && n <= |lines|
    ensures M50Accepts(nums, lines[..n])
    decreases |lines|
  {
    if n < |lines| {
      AcceptsPrefix(nums, lines[..|lines| - 1], n);
      assert lines[..|lines| - 1][..n] == lines[..n];
    } else {
      assert lines[..n] == lines;
    }
  }

  /** A line that the parser reads as a W-matrix row: its first token is a
      number and all its tokens are floats. */
  predicate MatrixLine(nums: Numerics, line: string)
  {
    |Words(line)| > 0 && nums.isNumber(Words(line)[0]) && AllFloats(nums, Words(line))
  }

  /** The rows of the lines from position `j` on, every line as floats. */
  function MatrixRows(nums: Numerics, lines: seq<string>, j: nat): seq<seq<real>>
    requires j <= |lines|
    requires forall i :: j <= i < |lines| ==> MatrixLine(nums, lines[i])
  {
    if |lines| == j then []
    else
      var k := |lines| - 1;
      assert forall i :: j <= i < k ==> lines[..k][i] == lines[i];
      assert MatrixLine(nums, lines[k]);
      MatrixRows(nums, lines[..k], j) + [Floats(nums, Words(lines[k]))]
  }

  /** A numeric line read while the last label is `wmatrix` adds its row. */
  lemma MatrixRow(nums: Numerics, lines: seq<string>, line: string)
    requires M50Accepts(nums, lines)
    requires ParseM50(nums, lines).previous == Some("wmatrix")
    requires MatrixLine(nums, line)
    ensures M50Accepts(nums, lines + [line])
    ensures var r := ParseM50(nums, lines + [line]);
      && r.previous == Some("wmatrix")
      && r.structure["wmatrix"] == FloatRows(ParseM50(nums, lines).structure["wmatrix"].rows + [Floats(nums, Words(line))])
  {
    M50Snoc(nums, lines, line);
    NumericLineExtendsMatrix(nums, ParseM50(nums, lines), line);
  }

  /** The numeric lines that follow a `wmatrix` label extend the matrix
      by exactly their rows of floats, in order: from position `j` on, where
      the last label is `wmatrix`, every line is numeric. */
  lemma {:induction false} MatrixBlock(nums: Numerics, lines: seq<string>, j: nat)
    requires j <= |lines|
    requires M50Accepts(nums, lines[..j])
    requires ParseM50(nums, lines[..j]).previous == Some("wmatrix")
    requires forall i :: j <= i < |lines| ==> MatrixLine(nums, lines[i])
    ensures M50Accepts(nums, lines)
    ensures var r := ParseM50(nums, lines);
      && r.previous == Some("wmatrix")
      && r.structure["wmatrix"] == FloatRows(ParseM50(nums, lines[..j]).structure["wmatrix"].rows + MatrixRows(nums, lines, j))
    decreases |lines|
  {
    if |lines| == j {
      assert lines[..j] == lines;
    } else {
      var k := |lines| - 1;
      var prefix := lines[..k];
      InitOfDrop(lines, j);
      MatrixBlock(nums, prefix, j);
      MatrixRow(nums, prefix, lines[k]);
      SnocSplit(lines);
      AppendAssoc(ParseM50(nums, lines[..j]).structure["wmatrix"].rows, MatrixRows(nums, prefix, j), [Floats(nums, Words(lines[k]))]);
    }
  }

  /** The W matrix right after a `wmatrix` line and its block of numeric
      lines is that block, row for row, whatever the file held before. */
  lemma MatrixOfBlock(nums: Numerics, lines: seq<string>, j: nat)
    requires j < |lines|
    requires M50Accepts(nums, lines[..j + 1])
    requires Words(lines[j])[0] == "wmatrix" && !nums.isNumber(Words(lines[j])[0])
    requires forall i :: j < i < |lines| ==> MatrixLine(nums, lines[i])
    ensures M50Accepts(nums, lines)
    ensures var r := ParseM50(nums, lines);
      "wmatrix" in r.structure && r.structure["wmatrix"] == FloatRows(MatrixRows(nums, lines, j + 1))
  {
    var head := lines[..j + 1];
    assert head[..j] == lines[..j];
    assert head[j] == lines[j];
    MatrixBlock(nums, lines, j + 1);
  }

  /** Whether the first token of a line is `name` and is not a number. */
  predicate IsLabelLine(nums: Numerics, line: string, name: string)
  {
    var w := Words(line);
    |w| > 0 && !nums.isNumber(w[0]) && w[0] == name
  }

  /** Whether a four-token `ndim` line would store a value under `key`. */
  predicate NdimWrites(nums: Numerics, line: string, key: string)
  {
    var w := Words(line);
    IsLabelLine(nums, line, "ndim") && |w| == 4 && w[2] == key
  }

  /** The token lists after the label of every `symmetry` line, in order. */
  function SymmetryItems(nums: Numerics, lines: seq<string>): seq<seq<string>>
  {
    if |lines| == 0 then []
    else
      var k := |lines| - 1;
      SymmetryItems(nums, lines[..k]) + (if IsLabelLine(nums, lines[k], "symmetry") then [Words(lines[k])[1..]] else [])
  }

  /** What one line does to the symmetry operators: a `symmetry` line
      appends the tokens after its label to the list, creating it if needed;
      a four-token `ndim` line whose third token is `symmetry` stores a count
      there; any other line leaves the key alone. */
  lemma SymmetryLine(nums: Numerics, st: M50State, line: string)
    requires Valid(st) && LineOk(nums, st, line)
    ensures var s := st.structure;
      var s' := M50Line(nums, st, line).structure;
      if IsLabelLine(nums, line, "symmetry") then
        "symmetry" in s' && s'["symmetry"] ==
          TokenRows((if "symmetry" in s then s["symmetry"].items else []) + [Words(line)[1..]])
      else if NdimWrites(nums, line, "symmetry") then
        "symmetry" in s' && s'["symmetry"] == Count(IntParse(Words(line)[3]).value)
      else
        ("symmetry" in s' <==> "symmetry" in s) && ("symmetry" in s ==> s'["symmetry"] == s["symmetry"])
  {
    if NdimWrites(nums, line, "symmetry") {
      NdimSecondPair(nums, st.structure, Words(line));
    } else if !IsLabelLine(nums, line, "symmetry") {
      assert "symmetry" !in Writes(nums, st, line);
      LineFrame(nums, st, line, "symmetry");
    }
  }

  /** The symmetry operators of a file are the tokens after the label of its
      `symmetry` lines, in file order; the list exists once the first such
      line is read (unless a four-token `ndim` line names it). */
  lemma {:induction false} SymmetryInFileOrder(nums: Numerics, lines: seq<string>)
    requires M50Accepts(nums, lines)
    requires forall i :: 0 <= i < |lines| ==> !NdimWrites(nums, lines[i], "symmetry")
    ensures var s := ParseM50(nums, lines).structure;
      && ("symmetry" in s <==> SymmetryItems(nums, lines) != [])
      && ("symmetry" in s ==> s["symmetry"] == TokenRows(SymmetryItems(nums, lines)))
  {
    if |lines| > 0 {
      var k := |lines| - 1;
      SymmetryInFileOrder(nums, lines[..k]);
      SymmetryLine(nums, ParseM50(nums, lines[..k]), lines[k]);
    }
  }

  /** The float lists after the label of every `lattvec` line, in order. */
  function LatticeVectors(nums: Numerics, lines: seq<string>): seq<seq<real>>
    requires forall i :: 0 <= i < |lines| ==> IsLabelLine(nums, lines[i], "lattvec") ==> AllFloats(nums, Words(lines[i])[1..])
  {
    if |lines| == 0 then []
    else
      var k := |lines| - 1;
      LatticeVectors(nums, lines[..k]) + (if IsLabelLine(nums, lines[k], "lattvec") then [Floats(nums, Words(lines[k])[1..])] else [])
  }

  /** What one line does to the lattice vectors: a `lattvec` line appends
      the floats after its label to the list, creating it if needed; a
      four-token `ndim` line whose third token is `lattvec` stores a count
      there; any other line leaves the key alone. */
  lemma LattvecLine(nums: Numerics, st: M50State, line: string)
    requires Valid(st) && LineOk(nums, st, line)
    ensures IsLabelLine(nums, line, "lattvec") ==> AllFloats(nums, Words(line)[1..])
    ensures var s := st.structure;
      var s' := M50Line(nums, st, line).structure;
      if IsLabelLine(nums, line, "lattvec") then
        "lattvec" in s' && s'["lattvec"] ==
          FloatRows((if "lattvec" in s then s["lattvec"].rows else []) + [Floats(nums, Words(line)[1..])])
      else if NdimWrites(nums, line, "lattvec") then
        "lattvec" in s' && s'["lattvec"] == Count(IntParse(Words(line)[3]).value)
      else
        ("lattvec" in s' <==> "lattvec" in s) && ("lattvec" in s ==> s'["lattvec"] == s["lattvec"])
  {
    if NdimWrites(nums, line, "lattvec") {
      NdimSecondPair(nums, st.structure, Words(line));
    } else if !IsLabelLine(nums, line, "lattvec") {
      assert "lattvec" !in Writes(nums, st, line);
      LineFrame(nums, st, line, "lattvec");
    }
  }

  /** Every `lattvec` line of an accepted file holds floats after its label. */
  lemma {:induction false} AcceptedLattvecFloats(nums: Numerics, lines: seq<string>)
    requires M50Accepts(nums, lines)
    ensures forall i :: 0 <= i < |lines| ==> IsLabelLine(nums, lines[i], "lattvec") ==> AllFloats(nums, Words(lines[i])[1..])
  {
    if |lines| > 0 {
      var k := |lines| - 1;
      AcceptedLattvecFloats(nums, lines[..k]);
      forall i | 0 <= i < |lines| && IsLabelLine(nums, lines[i], "lattvec")
        ensures AllFloats(nums, Words(lines[i])[1..])
      {
        if i < k {
          assert lines[..k][i] == lines[i];
        }
      }
    }
  }

  /** The lattice vectors of a file are the floats after the label of its
      `lattvec` lines, in file order; the list exists once the first such
      line is read (unless a four-token `ndim` line names it). */
  lemma {:induction false} LatticeVectorsInFileOrder(nums: Numerics, lines: seq<string>)
    requires M50Accepts(nums, lines)
    requires forall i :: 0 <= i < |lines| ==> !NdimWrites(nums, lines[i], "lattvec")
    ensures forall i :: 0 <= i < |lines| ==> IsLabelLine(nums, lines[i], "lattvec") ==> AllFloats(nums, Words(lines[i])[1..])
    ensures var s := ParseM50(nums, lines).structure;
      && ("lattvec" in s <==> LatticeVectors(nums, lines) != [])
      && ("lattvec" in s ==> s["lattvec"] == FloatRows(LatticeVectors(nums, lines)))
  {
    AcceptedLattvecFloats(nums, lines);
    if |lines| > 0 {
      var k := |lines| - 1;
      LatticeVectorsInFileOrder(nums, lines[..k]);
      LattvecLine(nums, ParseM50(nums, lines[..k]), lines[k]);
    }
  }
}

=== FILE: tokens.dfy ===
/** The token classifier shared by the file readers: `_clean_line` cuts a
    raw line into tokens, `_is_string` decides whether a token is a label or
    a number (integer before float). */
module Tokens {
  import opened Values
  import opened PyText

  /** `re.sub(r'\n', '', item)`: every newline removed. */
  function DropNewlines(s: string): (r: string)
    ensures '\n' !in r
    ensures forall c :: c in r ==> c in s
  {
    if |s| == 0 then []
    else if s[0] == '\n' then DropNewlines(s[1..])
    else [s[0]] + DropNewlines(s[1..])
  }

  /** The pieces of a split that survive `_clean_line`, newlines removed. */
  function KeepTokens(ps: seq<string>): (r: seq<string>)
    requires forall i :: 0 <= i < |ps| ==> ' ' !in ps[i]
    ensures |r| <= |ps|
    ensures forall i :: 0 <= i < |r| ==> NonBlank(r[i]) && '\n' !in r[i] && ' ' !in r[i]
  {
    if |ps| == 0 then []
    else
      var t := DropNewlines(ps[0]);
      var rest := KeepTokens(ps[1..]);
      if NonBlank(t) then [t] + rest else rest
  }

  /** `_clean_line(line)`: split on single spaces, strip newlines, and keep
      the items that are not blank. No token is blank, none holds a newline
      or a space. */
  function CleanLine(line: string): (r: seq<string>)
    ensures forall i :: 0 <= i < |r| ==> NonBlank(r[i]) && '\n' !in r[i] && ' ' !in r[i]
  {
    KeepTokens(SplitOn(line, ' '))
  }

  /** The positions of the pieces that `KeepTokens` keeps, in order. */
  function KeptPositions(ps: seq<string>): (idx: seq<nat>)
    ensures forall i :: 0 <= i < |idx| ==> idx[i] < |ps|
  {
    if |ps| == 0 then []
    else
      var rest := KeptPositions(ps[1..]);
      var shifted := seq(|rest|, i requires 0 <= i < |rest| => rest[i] + 1);
      if NonBlank(DropNewlines(ps[0])) then [0] + shifted else shifted
  }

  /** The kept positions are strictly increasing. */
  lemma {:induction false} KeptPositionsIncrease(ps: seq<string>)
    ensures forall i, j :: 0 <= i < j < |KeptPositions(ps)| ==> KeptPositions(ps)[i] < KeptPositions(ps)[j]
    decreases |ps|
  {
    if |ps| > 0 {
      KeptPositionsIncrease(ps[1..]);
    }
  }

  /** The token at place `i` comes from the piece at the `i`-th kept position. */
  lemma {:induction false} KeptPositionsMatch(ps: seq<string>)
    requires forall i :: 0 <= i < |ps| ==> ' ' !in ps[i]
    ensures |KeptPositions(ps)| == |KeepTokens(ps)|
    ensures forall i :: 0 <= i < |KeepTokens(ps)| ==>
      KeepTokens(ps)[i] == DropNewlines(ps[KeptPositions(ps)[i]])
    decreases |ps|
  {
    if |ps| > 0 {
      KeptPositionsMatch(ps[1..]);
    }
  }

  /** Exactly the non-blank pieces are kept. */
  lemma {:induction false} KeptPositionsComplete(ps: seq<string>, p: nat)
    requires p < |ps|
    ensures p in KeptPositions(ps) <==> NonBlank(DropNewlines(ps[p]))
    decreases |ps|
  {
    var rest := KeptPositions(ps[1..]);
    var shifted := seq(|rest|, i requires 0 <= i < |rest| => rest[i] + 1);
    if p > 0 {
      KeptPositionsComplete(ps[1..], p - 1);
      if p - 1 in rest {
        var i :| 0 <= i < |rest| && rest[i] == p - 1;
        assert shifted[i] == p;
      }
      if p in shifted {
        var i :| 0 <= i < |shifted| && shifted[i] == p;
        assert rest[i] == p - 1;
      }
    } else {
      assert 0 !in shifted;
    }
  }

  /** `_clean_line` keeps the non-blank space-separated items of the line, in
      their original order, and drops exactly the blank ones. */
  lemma CleanLineKeepsOrder(line: string)
    ensures var ps := SplitOn(line, ' ');
      var idx := KeptPositions(ps);
      && |idx| == |CleanLine(line)|
      && (forall i :: 0 <= i < |idx| ==> CleanLine(line)[i] == DropNewlines(ps[idx[i]]))
      && (forall i, j :: 0 <= i < j < |idx| ==> idx[i] < idx[j])
      && (forall p :: 0 <= p < |ps| ==> (p in idx <==> NonBlank(DropNewlines(ps[p]))))
  {
    var ps := SplitOn(line, ' ');
    KeptPositionsIncrease(ps);
    KeptPositionsMatch(ps);
    forall p | 0 <= p < |ps| ensures p in KeptPositions(ps) <==> NonBlank(DropNewlines(ps[p])) {
      KeptPositionsComplete(ps, p);
    }
  }

  /** A line written as tokens separated by single spaces and ended by a
      newline. */
  function RenderLine(tokens: seq<string>): string
  {
    if |tokens| == 0 then "\n" else JoinOn(tokens, ' ') + "\n"
  }

  lemma {:induction false} DropNewlinesAppend(a: string, b: string)
    ensures DropNewlines(a + b) == DropNewlines(a) + DropNewlines(b)
    decreases |a|
  {
    if |a| > 0 {
      assert (a + b)[1..] == a[1..] + b;
      DropNewlinesAppend(a[1..], b);
    } else {
      assert a + b == b;
    }
  }

  lemma {:induction false} DropNewlinesNone(s: string)
    requires '\n' !in s
    ensures DropNewlines(s) == s
    decreases |s|
  {
    if |s| > 0 {
      DropNewlinesNone(s[1..]);
      assert s == [s[0]] + s[1..];
    }
  }

  lemma {:induction false} JoinOnAppendLast(ps: seq<string>, sep: char, x: string)
    requires |ps| >= 1
    ensures JoinOn(ps[..|ps| - 1] + [ps[|ps| - 1] + x], sep) == JoinOn(ps, sep) + x
    decreases |ps|
  {
    var qs := ps[..|ps| - 1] + [ps[|ps| - 1] + x];
    if |ps| > 1 {
      JoinOnAppendLast(ps[1..], sep, x);
      assert qs[1..] == ps[1..][..|ps[1..]| - 1] + [ps[1..][|ps[1..]| - 1] + x];
      assert qs[0] == ps[0];
    }
  }

  lemma {:induction false} KeepTokensExact(ps: seq<string>, tokens: seq<string>)
    requires |ps| == |tokens|
    requires forall i :: 0 <= i < |ps| ==> ' ' !in ps[i]
    requires forall i :: 0 <= i < |ps| ==> DropNewlines(ps[i]) == tokens[i] && NonBlank(tokens[i])
    ensures KeepTokens(ps) == tokens
    decreases |ps|
  {
    if |ps| > 0 {
      KeepTokensExact(ps[1..], tokens[1..]);
      assert tokens == [tokens[0]] + tokens[1..];
    }
  }

  /** Tokens written out one space apart on a newline-terminated line are
      exactly what `_clean_line` reads back. */
  lemma CleanLineOfRender(tokens: seq<string>)
    requires forall i :: 0 <= i < |tokens| ==>
      NonBlank(tokens[i]) && ' ' !in tokens[i] && '\n' !in tokens[i]
    ensures CleanLine(RenderLine(tokens)) == tokens
  {
    if |tokens| == 0 {
      SplitOfJoin(["\n"], ' ');
      assert JoinOn(["\n"], ' ') == "\n";
      assert DropNewlines("\n") == "";
      assert !NonBlank("");
    } else {
      var n := |tokens|;
      var ps := tokens[..n - 1] + [tokens[n - 1] + "\n"];
      JoinOnAppendLast(tokens, ' ', "\n");
      forall i | 0 <= i < |ps| ensures ' ' !in ps[i] {
        if i == n - 1 {
          assert ps[i] == tokens[n - 1] + "\n";
        }
      }
      SplitOfJoin(ps, ' ');
      forall i | 0 <= i < |ps| ensures DropNewlines(ps[i]) == tokens[i] {
        DropNewlinesNone(tokens[i]);
        if i == n - 1 {
          DropNewlinesAppend(tokens[n - 1], "\n");
          assert DropNewlines("\n") == "";
          assert tokens[n - 1] + "" == tokens[n - 1];
        }
      }
      KeepTokensExact(ps, tokens);
    }
  }

  // ---------------------------------------------------------------------
  // _is_string

  /** `_is_string(value)`: a string that int() accepts is the integer, else
      one that float() accepts is the float, else it is a label and comes back
      unchanged; a value that is not a string is returned as it is. The flag
      is true for labels only. */
  function Classify(nums: Numerics, v: PyValue): (r: (bool, PyValue))
    ensures r.0 <==> v.PyStr? && IntParse(v.s).None? && nums.parseFloat(v.s).None?
    ensures r.0 ==> r.1 == v
    ensures !v.PyStr? ==> r == (false, v)
    ensures v.PyStr? && !r.0 ==> r.1.PyInt? || r.1.PyFloat?
    ensures v.PyStr? && IntParse(v.s).Some? ==> r == (false, PyInt(IntParse(v.s).value))
    ensures v.PyStr? && IntParse(v.s).None? && nums.parseFloat(v.s).Some? ==>
      r == (false, PyFloat(nums.parseFloat(v.s).value))
  {
    match v
    case PyStr(s) =>
      (match IntParse(s)
       case Some(n) => (false, PyInt(n))
       case None =>
         match nums.parseFloat(s)
         case Some(x) => (false, PyFloat(x))
         case None => (true, v))
    case _ => (false, v)
  }

  /** A token of a line together with what `_is_string` made of it. */
  datatype Token = Token(text: string, isLabel: bool, value: PyValue)

  /** Every token of a line, classified. */
  function Lex(nums: Numerics, toks: seq<string>): (r: seq<Token>)
    ensures |r| == |toks|
    ensures forall i :: 0 <= i < |toks| ==>
      r[i].text == toks[i] && (r[i].isLabel, r[i].value) == Classify(nums, PyStr(toks[i]))
  {
    seq(|toks|, i requires 0 <= i < |toks| =>
      var c := Classify(nums, PyStr(toks[i])); Token(toks[i], c.0, c.1))
  }

  /** Integer conversion is tried before float conversion: a token that
      int() accepts is an integer even when float() accepts it too. */
  lemma IntegerBeforeFloat(nums: Numerics, t: string)
    requires IntParse(t).Some?
    ensures Classify(nums, PyStr(t)) == (false, PyInt(IntParse(t).value))
  {
  }

  /** Any integer written with f'{n}' classifies back as that integer, never
      as a float or a label. */
  lemma ClassifyIntText(nums: Numerics, n: int)
    ensures Classify(nums, PyStr(IntText(n))) == (false, PyInt(n))
  {
    IntParseOfText(n);
  }

  /** The token "42" is the integer 42. */
  lemma ClassifyFortyTwo(nums: Numerics, t: string)
    requires t == ['4', '2']
    ensures Classify(nums, PyStr(t)) == (false, PyInt(42))
  {
    IntStripTrimmed(t);
    assert DigitRun(t);
    assert t[..1] == ['4'];
    assert RunValue(t[..1]) == 4 by { assert t[..1][..0] == []; }
  }

  /** A token starting with an information separator, such as "\x1c7",
      which `_clean_line` keeps because it splits on spaces only, is a label
      when float() rejects it too. */
  lemma SeparatorTokenIsLabel(nums: Numerics, t: string)
    requires t == ['\U{1c}', '7']
    requires nums.parseFloat(t) == None
    ensures Classify(nums, PyStr(t)) == (true, PyStr(t))
  {
    IntRejectsSeparator(t);
  }

  /** The token "4.2" is whatever float() makes of it: the dot rules out an
      integer. */
  lemma ClassifyFourPointTwo(nums: Numerics, t: string)
    requires t == ['4', '.', '2']
    requires nums.parseFloat(t) == Some(4.2)
    ensures Classify(nums, PyStr(t)) == (false, PyFloat(4.2))
  {
    IntStripTrimmed(t);
    assert !IsDigit(t[1]);
    assert !DigitRun(t);
  }
}

=== FILE: values.dfy ===
/** Values shared by every parser of the JANA toolkit: an option type, the
    dynamically typed values the Python code passes around, the numeric
    routines it calls but which are not modelled, and insertion-ordered
    dictionaries keyed by a running counter. */
module Values {

  datatype Option<+T> = None | Some(value: T)

  /** A Python value as the parsers see it. Floats are carried as reals; the
      model never computes with them, it only moves them around. */
  datatype PyValue =
    | PyNone
    | PyBool(b: bool)
    | PyInt(i: int)
    | PyFloat(x: real)
    | PyStr(s: string)

  /** The floating-point and library routines that the parsers call and that
      are not modelled: Python's float(), `is_number` from topas_tools, and the
      conversions of the Utils base class. Each is an uninterpreted function. */
  datatype Numerics = Numerics(
    // float(s); None where float() raises ValueError
    parseFloat: string -> Option<real>,
    // topas_tools' is_number
    isNumber: string -> bool,
    // Utils.convert_to_q(tth, lambda)
    qFromTth: (real, real) -> real,
    // Utils.convert_to_s(d)
    sFromD: real -> real,
    // Utils.calc_tth_from_d(lambda, d)
    tthFromD: (real, real) -> real,
    // the d-spacing formula of the X-ray branch: lambda / (2 sin(pi/180 * tth))
    dFromTth: (real, real) -> real,
    // convert_to_q(value, header['lambda']) on arbitrary values; None where it raises
    tryQ: (PyValue, PyValue) -> Option<PyValue>
  )

  /** `tryQ` and `qFromTth` are the same routine, `convert_to_q`: on a float
      angle and a float wavelength the pattern reader's conversion succeeds
      with the value the reflection reader computes. */
  ghost predicate QAgrees(nums: Numerics)
  {
    forall t: real, l: real :: nums.tryQ(PyFloat(t), PyFloat(l)) == Some(PyFloat(nums.qFromTth(t, l)))
  }

  /** The keys of an insertion-ordered dictionary held as its entries in order. */
  function KeysOf<V>(d: seq<(int, V)>): set<int>
  {
    set i | 0 <= i < |d| :: d[i].0
  }

  /** A dictionary whose keys are exactly 0, 1, ..., n-1 in insertion order. */
  predicate IndexKeyed<V>(d: seq<(int, V)>)
  {
    forall i :: 0 <= i < |d| ==> d[i].0 == i
  }

  /** The values of a dictionary in iteration (insertion) order. */
  function ValuesOf<V>(d: seq<(int, V)>): (vs: seq<V>)
    ensures |vs| == |d|
    ensures forall i :: 0 <= i < |d| ==> vs[i] == d[i].1
  {
    seq(|d|, i requires 0 <= i < |d| => d[i].1)
  }

  lemma KeysOfCons<V>(e: (int, V), rest: seq<(int, V)>)
    ensures KeysOf([e] + rest) == {e.0} + KeysOf(rest)
  {
    var d := [e] + rest;
    forall x | x in KeysOf(d) ensures x in {e.0} + KeysOf(rest) {
      var i :| 0 <= i < |d| && d[i].0 == x;
      if i > 0 { assert rest[i - 1].0 == x; }
    }
    forall x | x in KeysOf(rest) ensures x in KeysOf(d) {
      var i :| 0 <= i < |rest| && rest[i].0 == x;
      assert d[i + 1].0 == x;
    }
    assert d[0].0 == e.0;
  }

  /** The position of the first entry under key `k`. */
  function FirstIndex<V>(d: seq<(int, V)>, k: int): (i: nat)
    requires k in KeysOf(d)
    ensures i < |d| && d[i].0 == k
    ensures forall j :: 0 <= j < i ==> d[j].0 != k
  {
    if d[0].0 == k then 0
    else
      KeysOfCons(d[0], d[1..]);
      assert d == [d[0]] + d[1..];
      1 + FirstIndex(d[1..], k)
  }

  /** Python's `d[k] = v`: an existing key keeps its place and takes the new
      value, every other entry staying as it was; a new key is appended at
      the end. */
  function Put<V>(d: seq<(int, V)>, k: int, v: V): (r: seq<(int, V)>)
    ensures k !in KeysOf(d) ==> r == d + [(k, v)]
    ensures k in KeysOf(d) ==> |r| == |d| && KeysOf(r) == KeysOf(d)
    ensures k in KeysOf(d) ==>
      var i := FirstIndex(d, k);
      r == d[..i] + [(k, v)] + d[i + 1..]
    ensures k in KeysOf(r)
  {
    if |d| == 0 then
      KeysOfCons((k, v), []);
      [(k, v)]
    else if d[0].0 == k then
      KeysOfCons((k, v), d[1..]);
      KeysOfCons(d[0], d[1..]);
      assert d == [d[0]] + d[1..];
      [(k, v)] + d[1..]
    else
      var rest := Put(d[1..], k, v);
      KeysOfCons(d[0], d[1..]);
      KeysOfCons(d[0], rest);
      assert d == [d[0]] + d[1..];
      [d[0]] + rest
  }

  /** Storing under the running counter of an index-keyed dictionary appends
      a fresh entry and keeps the dictionary index-keyed. */
  lemma PutNextKey<V>(d: seq<(int, V)>, v: V)
    requires IndexKeyed(d)
    ensures Put(d, |d|, v) == d + [(|d|, v)]
    ensures IndexKeyed(Put(d, |d|, v))
  {
    forall i | 0 <= i < |d| ensures d[i].0 != |d| { }
    assert |d| !in KeysOf(d);
  }

  // Sequence facts the folds over lines use; stated once here so that the
  // proofs about the parsers do not redo them in a large context.

  lemma SnocSplit<T>(s: seq<T>)
    requires |s| > 0
    ensures s[..|s| - 1] + [s[|s| - 1]] == s
  {
  }

  lemma InitOfDrop<T>(s: seq<T>, j: nat)
    requires j < |s|
    ensures s[j..][..|s| - j - 1] == s[..|s| - 1][j..]
    ensures s[..|s| - 1][..j] == s[..j]
  {
  }

  lemma AppendAssoc<T>(a: seq<T>, b: seq<T>, c: seq<T>)
    ensures (a + b) + c == a + (b + c)
  {
  }
}
